=== FILE: README.md ===
# ARM architected timer driver: a Dafny model

This project models the control logic of the Linux ARM architected timer
driver (`drivers/clocksource/arm_arch_timer.c`). It covers:

- the register-access abstraction over the four access personalities: the
  cp15 physical and virtual timers, and the physical and virtual views of a
  memory-mapped CNTBaseN frame;
- the per-timer one-shot event device: shutdown, arm and interrupt
  acknowledge;
- the out-of-line erratum workaround registry: the ordered catalog search,
  the ACPI OEM match with its sentinel, and the per-CPU install with its
  global enable flag and the sticky loss of the vDSO fast path;
- the dispatch that decides, per CPU, whether an erratum hook or the
  default path arms the timer;
- the three counter readers: the tear-safe high/low/high read of the
  memory-mapped counter, the Freescale A-008585 bounded double read, and the
  ARM 858921 bit-32 selector;
- the small configuration decisions: the counter rate, the event-stream
  divider, the CNTKCTL edits, the PPI trigger coercion, the PPI selection,
  the GTDT interrupt-flag decoding and the CNTBaseN frame choice;
- `__arch_timer_setup` and the CPU start and stop steps built on it.

Hardware is an abstract register file, a map from locations to 32- or
64-bit values. Every store an operation performs is returned as a list of
writes, so a contract can say both what was written and what the registers
hold afterwards. A hardware read that may change between reads is a stream
of samples the caller supplies. The per-CPU workaround pointer becomes a
sequence of optional catalog indices. The static key becomes a boolean.

Modules, in dependency order:

| file | module | models |
|---|---|---|
| wrappers.dfy | `Wrappers` | `Option` |
| registers.dfy | `Registers` | locations, register file, `arch_timer_reg_read`/`_write`, CTRL and CNTKCTL layouts |
| errata.dfy | `Errata` | catalog, match predicates, `arch_timer_iterate_errata`, `arch_timer_enable_workaround`, `arch_timer_check_ool_workaround`, `erratum_handler` |
| timer_event.dfy | `TimerEvent` | `timer_shutdown`, `set_next_event`, `erratum_set_next_event_tval_generic`, `arch_timer_set_next_event_*`, `timer_handler` |
| counter.dfy | `Counter` | `arch_counter_get_cntvct_mem`, `__fsl_a008585_read_reg`, `arm64_858921_read_cntvct_el0` |
| config.dfy | `Config` | `arch_timer_of_configure_rate`, `check_ppi_trigger`, `arch_timer_select_ppi`, `arch_timer_has_nonsecure_ppi`, `map_generic_timer_interrupt`, the frame loop of `arch_timer_mem_init` |
| cntkctl.dfy | `Cntkctl` | `arch_timer_evtstrm_enable`, `arch_counter_set_user_access` |
| evtstream.dfy | `EventStream` | the divider of `arch_timer_configure_evtstream` |
| lifecycle.dfy | `Lifecycle` | `__arch_timer_setup`, `arch_timer_starting_cpu`, `arch_timer_stop`/`arch_timer_dying_cpu` |

Several constants come from kernel headers that are not part of this model.
Their values are taken from the Generic Timer chapter of the Arm
Architecture Reference Manual (ARMv8-A) and from section 5.2.24 of the ACPI
6 specification (Generic Timer Description Table):

- CTRL: ENABLE = bit 0, IMASK = bit 1, ISTATUS = bit 2.
- CNTKCTL:
  - EL0PCTEN = bit 0 and EL0VCTEN = bit 1;
  - EVNTEN = bit 2 and EVNTI = bits 4-7;
  - EL0VTEN = bit 8 and EL0PTEN = bit 9.
- GTDT timer flags: interrupt mode = bit 0 (edge), polarity = bit 1
  (active low), always-on = bit 2.

`IRQF_TRIGGER_HIGH` (0x4) and `IRQF_TRIGGER_LOW` (0x8) are the kernel's
interrupt-flag values. `ARCH_TIMER_EVT_STREAM_FREQ` is 10000 (a 100 us
stream).

Points where the code is easy to misread, and how the model states them:

- A starting CPU runs the local-capability erratum check inside
  `__arch_timer_setup` (arm_arch_timer.c:667), before that function shuts
  the timer down (arm_arch_timer.c:686) and before any interrupt is
  enabled.
- The tear-safe memory-mapped counter read (arm_arch_timer.c:859-867)
  retries with no bound and can spin forever. The model adds a ghost bound,
  `settle`, on an iteration whose two high reads agree, and states the
  result as that of the first agreeing iteration (see "## Left out").
- The Freescale retry read warns through `WARN_ON_ONCE(!_retries)`
  (arm_arch_timer.c:207). Its condition is evaluated on every call and is
  true on every call that runs all 200 iterations, even when the 200th
  pair agrees; the message is printed only the first time. The model
  reports, per call, whether the condition held, and does not model the
  print-once state.
- A device-tree or ACPI match found while the calling CPU's slot is empty
  overwrites every CPU's slot, including slots filled by an earlier local
  install, whether or not the global flag is already set
  (`Errata.GlobalInstallOverwritesEverySlot`). In the driver this never
  meets a filled slot because the device-tree and ACPI checks
  (arm_arch_timer.c:1164, 1353) run before `arch_timer_register` brings up
  the CPUs (arm_arch_timer.c:1014).

## Model

| member | source | states |
|---|---|---|
| Registers.RegLoc | drivers/clocksource/arm_arch_timer.c:93-153 | cp15 accesses reach system registers and memory accesses reach the frame; the physical access lands on the CNTP registers or offsets and the virtual one on the CNTV ones, CTRL on a CTL and TVAL on a TVAL |
| Registers.RegRead | drivers/clocksource/arm_arch_timer.c:122-153 | an accessor read returns the 32-bit value last stored at the location the access and register map to |
| Registers.RegReadAfterWrite | drivers/clocksource/arm_arch_timer.c:93-120 | a register written through an accessor reads back the value written, and every other (access, register) pair reads as before |
| Registers.Join | drivers/clocksource/arm_arch_timer.c:859-870 | `(hi << 32) \| lo` has `hi` as its upper half and `lo` as its lower half |
| Registers.JoinSplit | drivers/clocksource/arm_arch_timer.c:859-870 | splitting a 64-bit counter value into halves and joining them again gives the same value |
| Registers.ClearEnable | drivers/clocksource/arm_arch_timer.c:557-567 | the shutdown value of CTRL has ENABLE clear and every other bit as read |
| Registers.EnableUnmasked | drivers/clocksource/arm_arch_timer.c:589-598 | the arm value of CTRL has ENABLE set, IMASK clear and every other bit as read |
| Registers.SetMask | drivers/clocksource/arm_arch_timer.c:513-527 | the acknowledge value of CTRL has IMASK set and every other bit as read |
| TimerEvent.TimerShutdown | drivers/clocksource/arm_arch_timer.c:557-567 | shutdown returns 0 and performs exactly one store, to this timer's CTRL, with ENABLE clear and all other bits as read |
| TimerEvent.ShutdownDisables | drivers/clocksource/arm_arch_timer.c:557-567 | after shutdown, this timer's CTRL has ENABLE clear, its other bits unchanged, and every other register unchanged |
| TimerEvent.ShutdownIdempotent | drivers/clocksource/arm_arch_timer.c:557-567 | shutting down twice leaves the same registers as shutting down once |
| TimerEvent.SetNextEvent | drivers/clocksource/arm_arch_timer.c:589-598 | the default arm first writes the low 32 bits of `evt` to TVAL, then writes CTRL with ENABLE set, IMASK clear and other bits as read |
| TimerEvent.ErratumSetNextEvent | drivers/clocksource/arm_arch_timer.c:276-292 | the erratum arm writes `evt + counter` to the CVAL of the access's timer, then the same CTRL store as the default arm |
| TimerEvent.ArchTimerSetNextEvent | drivers/clocksource/arm_arch_timer.c:600-636 | all four entry points return 0; the memory-mapped ones always take the default path; the cp15 ones take the erratum path exactly when `erratum_handler` finds the hook, and in particular whenever the flag is set and this CPU's workaround supplies the hook; else the default path |
| TimerEvent.MemArmIgnoresErrata | drivers/clocksource/arm_arch_timer.c:624-636 | the memory-mapped arm result does not depend on the registry state or the sampled counter |
| TimerEvent.ArmCtrlValue | drivers/clocksource/arm_arch_timer.c:276-292 | whichever path runs, CTRL afterwards is the read value with ENABLE set and IMASK cleared |
| TimerEvent.ArmLeavesArmed | drivers/clocksource/arm_arch_timer.c:589-598 | after any arm the timer is enabled and unmasked |
| TimerEvent.ArmThenShutdown | drivers/clocksource/arm_arch_timer.c:557-598 | a shutdown after any arm leaves ENABLE clear, so the timer is no longer armed |
| TimerEvent.TimerHandler | drivers/clocksource/arm_arch_timer.c:513-527 | with ISTATUS set: handled, one callback, one CTRL store with IMASK added; otherwise: not handled, no store, no callback |
| TimerEvent.ArmFireAcknowledge | drivers/clocksource/arm_arch_timer.c:513-527 | an armed timer that fires is acknowledged: handled, one callback, left masked and still enabled |
| TimerEvent.SpuriousIsNoop | drivers/clocksource/arm_arch_timer.c:513-527 | an interrupt with ISTATUS clear changes no register |
| Errata.SentinelIndex | drivers/clocksource/arm_arch_timer.c:378-389 | the position of the first all-zero entry (or the list length), with no sentinel before it |
| Errata.OemListMatches | drivers/clocksource/arm_arch_timer.c:371-390 | the OEM predicate holds exactly when some entry before the first sentinel matches the table's OEM id, table id and revision exactly |
| Errata.OemListIgnoresAfterSentinel | drivers/clocksource/arm_arch_timer.c:378-389 | entries after a sentinel never change the OEM predicate |
| Errata.IterateFrom | drivers/clocksource/arm_arch_timer.c:392-408 | the search from a position returns the first qualifying index at or after it, or none when none qualifies |
| Errata.IterateErrata | drivers/clocksource/arm_arch_timer.c:392-408 | the catalog search returns the first entry in array order with the queried match type whose predicate holds, and none when no entry qualifies |
| Errata.InitialState | drivers/clocksource/arm_arch_timer.c:268-273 | at boot the flag is off, every slot is empty and the vDSO fast path is on |
| Errata.EnableWorkaround | drivers/clocksource/arm_arch_timer.c:410-435 | a local install fills only this CPU's slot and a global one fills every slot; the flag becomes true; the vDSO fast path survives only if it was on and the workaround has no counter-read hook |
| Errata.CheckOolWorkaround | drivers/clocksource/arm_arch_timer.c:437-478 | no match changes nothing; a set flag with a filled slot changes nothing and warns exactly when the match differs; otherwise it installs the match, locally exactly for the local-capability type; validity kept |
| Errata.RunChecks | drivers/clocksource/arm_arch_timer.c:437-478 | any series of checks keeps the registry valid and the slot count fixed |
| Errata.RunChecksMonotone | drivers/clocksource/arm_arch_timer.c:410-435 | over any series of checks the vDSO fast path, once off, stays off, and the global flag, once on, stays on |
| Errata.HisiOemMatch | drivers/clocksource/arm_arch_timer.c:233-254 | the HiSilicon list accepts HIP06 only at revision 0 |
| Errata.LocalLookupPrefersFirst | drivers/clocksource/arm_arch_timer.c:308-349 | a CPU with 1188873 gets that workaround whatever else it has: it is the first local-capability entry of the catalog |
| Errata.CheckDtErratum | drivers/clocksource/arm_arch_timer.c:354-361 | the device-tree predicate holds exactly when the entry is a device-tree entry whose property the node has |
| Errata.CheckLocalCapErratum | drivers/clocksource/arm_arch_timer.c:363-368 | the local-capability predicate holds exactly when the entry is a capability entry that this CPU has |
| Errata.CheckAcpiOemErratum | drivers/clocksource/arm_arch_timer.c:371-390 | the ACPI predicate holds exactly when the entry is an OEM-list entry with an exact match before the list's sentinel |
| Errata.MatchFnReadsOnlyItsArgument | drivers/clocksource/arm_arch_timer.c:437-456 | the match function chosen for a type consults only that type's argument: the node, this CPU, or the table |
| Errata.GlobalInstallOverwritesEverySlot | drivers/clocksource/arm_arch_timer.c:410-478 | a device-tree or ACPI match on a CPU with an empty slot puts that workaround in every CPU's slot, whatever the global flag |
| Errata.ErratumHandler | drivers/clocksource/arm_arch_timer.c:480-496 | the erratum path is taken exactly when the global flag is set, this CPU has a workaround, and that workaround supplies the requested hook: an installed override is always used |
| Errata.Arm858921ArmsByDefault | drivers/clocksource/arm_arch_timer.c:340-347 | a CPU whose workaround is 858921 always arms through the default path |
| Errata.ReadFixupsTakeOverArming | drivers/clocksource/arm_arch_timer.c:308-339 | once enabled, a CPU with the Freescale, 1188873 or HiSilicon workaround arms both cp15 timers through the erratum path |
| Errata.ThisCpuHasCntvctWa | drivers/clocksource/arm_arch_timer.c:498-504 | a CPU that has a counter-read workaround always finds the global flag set and the vDSO fast path already off |
| Counter.ArchCounterGetCntvctMem | drivers/clocksource/arm_arch_timer.c:859-870 | the loop stops at the first iteration whose two high reads agree; the result's high half equals both, and its low half is the read between them |
| Counter.FslLoopFrom | drivers/clocksource/arm_arch_timer.c:197-209 | from any iteration the loop stops at the first agreeing pair or at the 200th iteration |
| Counter.FslA008585ReadReg | drivers/clocksource/arm_arch_timer.c:197-209 | 1 to 200 iterations; the result is the second read of the last pair; every earlier pair disagreed; stopping early means the pair agreed; the warning holds exactly at 200 iterations |
| Counter.FslNeverAgrees | drivers/clocksource/arm_arch_timer.c:197-209 | a register that never agrees with itself runs all 200 iterations and warns |
| Counter.FslStableFirstRead | drivers/clocksource/arm_arch_timer.c:197-209 | an agreeing first pair returns after one iteration with no warning |
| Counter.Arm858921ReadCntvct | drivers/clocksource/arm_arch_timer.c:258-265 | the result is the first read when bit 32 differs between the reads and the second otherwise; its bit 32 is that of the first read |
| Counter.Bit32DiffersIsXorTest | drivers/clocksource/arm_arch_timer.c:258-265 | the bit-32 comparison is the source's test `((old ^ new) >> 32) & 1` |
| Counter.Arm858921Between | drivers/clocksource/arm_arch_timer.c:258-265 | for two reads taken in order the result lies between them |
| Config.OfConfigureRate | drivers/clocksource/arm_arch_timer.c:805-817 | a non-zero rate is kept; otherwise the `clock-frequency` property overrides the register value; it warns exactly when the result is zero |
| Config.OfferedRates | drivers/clocksource/arm_arch_timer.c:805-817 | each node offers its `clock-frequency` property when present and the register value otherwise |
| Config.RateSticky | drivers/clocksource/arm_arch_timer.c:805-817 | once the rate is non-zero, no later configure call changes it |
| Config.FirstNonZeroRateWins | drivers/clocksource/arm_arch_timer.c:805-817 | configuring over a series of nodes yields the first non-zero rate offered, starting from the current rate |
| Config.CheckPpiTrigger | drivers/clocksource/arm_arch_timer.c:764-775 | a HIGH or LOW trigger passes unchanged and silently; any other becomes LOW with a warning |
| Config.CheckPpiTriggerIdempotent | drivers/clocksource/arm_arch_timer.c:764-775 | coercing a coerced trigger changes nothing and does not warn |
| Config.SelectPpi | drivers/clocksource/arm_arch_timer.c:1128-1140 | HYP exactly when the kernel runs in HYP mode, then VIRT when HYP mode is unavailable and a virtual PPI exists, then non-secure on arm64 and secure otherwise |
| Config.MapGenericTimerInterrupt | drivers/clocksource/arm_arch_timer.c:1284-1298 | interrupt 0 registers nothing; otherwise the GSI is registered edge exactly when the mode bit is set and active-low exactly when the polarity bit is set |
| Config.GtdtFlagsRoundTrip | drivers/clocksource/arm_arch_timer.c:1284-1298 | decoding the GTDT flags of a trigger and polarity gives them back, whatever other flag bits are set |
| Config.SelectTimerFrame | drivers/clocksource/arm_arch_timer.c:1216-1246 | the first virtual-capable frame wins; else the last physical-capable frame; a frame without a number met before a virtual one aborts; no usable frame fails |
| Cntkctl.EvtstrmEnable | drivers/clocksource/arm_arch_timer.c:691-704 | the event stream is enabled, the trigger field holds the divider, and the other bits are as read |
| Cntkctl.StartCntkctl | drivers/clocksource/arm_arch_timer.c:691-756 | user access set, then the event stream enabled with the divider when configured: timer and physical-counter access off, virtual-counter access as allowed, the event-stream bit exactly when configured, and every bit outside the access bits and the trigger field unchanged, the trigger field too when the stream is off |
| Cntkctl.EventStreamAfterUserAccess | drivers/clocksource/arm_arch_timer.c:691-704 | enabling the event stream after setting user access keeps the access bits just set and changes nothing outside the access bits and the trigger field |
| Cntkctl.SetUserAccess | drivers/clocksource/arm_arch_timer.c:728-756 | user access to both timers, the physical counter and the event stream is off; user access to the virtual counter is on exactly when configured and this CPU has no counter-read workaround; other bits as read |
| EventStream.Fls | drivers/clocksource/arm_arch_timer.c:720 | `fls(x)` is zero only for zero and otherwise the n with 2^(n-1) <= x < 2^n |
| EventStream.EvtStreamDivider | drivers/clocksource/arm_arch_timer.c:706-726 | the divider is always in [0, 15] and is 0 for a zero divisor |
| EventStream.RoundedLsbPow2 | drivers/clocksource/arm_arch_timer.c:720-722 | a divisor of exactly 2^k gives k before clamping |
| EventStream.RoundedLsbNearest | drivers/clocksource/arm_arch_timer.c:720-722 | before clamping the result is the top bit L or L + 1, and L + 1 exactly when the divisor is at least 3 * 2^(L-1), the midpoint to 2^(L+1) |
| EventStream.EvtStreamDividerExact | drivers/clocksource/arm_arch_timer.c:706-726 | a divisor of exactly 2^k, k <= 15, gives divider k |
| EventStream.EvtStreamDividerNearest | drivers/clocksource/arm_arch_timer.c:706-726 | a non-zero divisor gives the nearest power-of-two exponent, ties rounding up, clamped to 15 |
| EventStream.EvtStreamDivider100MHz | drivers/clocksource/arm_arch_timer.c:706-726 | a 100 MHz counter gives divider 12 |
| Lifecycle.ArchTimerSetup | drivers/clocksource/arm_arch_timer.c:638-689 | cp15 devices get the virtual callbacks exactly when the virtual PPI is in use, memory devices exactly when the frame is used virtually; names, ratings, features, CPU mask and irq per type; cp15 runs the local check; the device is shut down |
| Lifecycle.SetupLeavesTimerDisabled | drivers/clocksource/arm_arch_timer.c:638-689 | a freshly set-up device's timer is disabled, with only ENABLE changed in its CTRL |
| Config.HasNonsecurePpiOfSelection | drivers/clocksource/arm_arch_timer.c:758-762 | for the PPI `arch_timer_select_ppi` returns, the non-secure line is used exactly on 32-bit arm outside HYP mode, without the virtual PPI, when firmware gave a non-secure PPI |
| Lifecycle.PerCpuIrqs | drivers/clocksource/arm_arch_timer.c:758-762 | the lines used are the selected PPI, plus the non-secure PPI exactly when the secure PPI is in use and a non-secure one exists |
| Lifecycle.ArchTimerStartingCpu | drivers/clocksource/arm_arch_timer.c:777-798 | a starting CPU enables its lines in order with coerced triggers; CNTKCTL ends with timer and physical-counter user access off, virtual-counter access as the workaround and configuration allow, and the event stream on exactly when configured, with the computed divider; every other CNTKCTL bit, and the trigger field when the stream is off, keeps its value |
| Lifecycle.ArchTimerDyingCpu | drivers/clocksource/arm_arch_timer.c:909-926 | a dying CPU disables the selected PPI first and the non-secure PPI second exactly when that one is in use, then leaves its timer's CTRL with ENABLE clear, its other CTRL bits and every other register unchanged |
| Lifecycle.StartStopBalanced | drivers/clocksource/arm_arch_timer.c:777-926 | a dying CPU disables exactly the lines its start enabled, in the same order, and leaves its timer disabled |

## Left out

- The catalog `Errata.OolWorkarounds` holds all four entries, as if every
  erratum option (`CONFIG_FSL_ERRATUM_A008585`,
  `CONFIG_ARM64_ERRATUM_1188873`, `CONFIG_ARM64_ERRATUM_858921`) were
  enabled; builds with fewer entries are not modelled.
- The clocksource's `vdso_direct` is not modelled separately from
  `vdso_default` (`OolState.vdsoDefault`). `vdso_default` starts true
  (arm_arch_timer.c:79) while `vdso_direct` starts zero; the two agree
  once `arch_counter_register` copies one into the other
  (arm_arch_timer.c:891), and a later workaround install clears both
  together (arm_arch_timer.c:432).
- On 32-bit arm, a device-tree node with
  `arm,cpu-registers-not-fw-configured` forces the secure physical PPI
  instead of calling `arch_timer_select_ppi` (arm_arch_timer.c:1170-1172).
  That override is not modelled; the PPI in use is an input of
  `Lifecycle.DriverConfig`, and the selection lemmas speak only of the PPI
  `arch_timer_select_ppi` returns.
- Real system-register and MMIO access (`read_sysreg`, `write_sysreg`,
  `readl_relaxed`, the cp15 accessors) are replaced by the register file
  and by sample streams. The memory barriers (`isb`) are not modelled.
- Per-CPU storage and the static key are a slot sequence and a boolean. The
  concurrency around them is not modelled.
- IRQ request and free, the `arch_timer_register` error unwind, hotplug
  registration and the CPU PM notifier are foreign kernel plumbing.
- Clocksource, cyclecounter, sched_clock and clockevents registration, and
  `timecounter_init`, are not modelled. This includes the
  `arch_counter_register` choice of counter reader and the delta bounds
  passed to `clockevents_config_and_register`.
- Device-tree and ACPI lookups are inputs to the decision functions. These
  are `of_property_read_*`, `irq_of_parse_and_map`, `of_iomap` and
  `acpi_register_gsi`.
- `arch_timer_banner` and all `pr_*` output are left out. Where a warning
  is the point, the model returns it as a boolean.
- The HWCAP update in `arch_timer_evtstrm_enable` is left out. It is a
  global side effect that no modelled decision reads.
- The HiSilicon and 1188873 read functions are out of scope. Their reads
  are not defined in this file or are plain register reads; they appear
  only as hook tags.
- The `default: BUG()` branch of the `__arch_timer_setup` switch cannot be
  reached with the four-valued `Ppi`.
- `__arch_timer_setup` for memory timers: the `irq` field is set by the
  caller, `arch_timer_mem_register`, so the model leaves it unset.
- Counter.ArchCounterGetCntvctMem: termination rests on an eventual
  agreement iteration, `settle`, supplied as a ghost. The source spins
  without a bound.
- Config.SelectTimerFrame: `CNTTIDR_VIRT(n)` is `BIT(1) << 4n`, a 64-bit
  shift on arm64, so a frame number from 8 to 15 tests a bit above the
  32-bit CNTTIDR and the test is false; 16 or more (8 or more on 32-bit
  arm) is undefined behaviour in C. The model treats every frame numbered
  8 or more as not virtual-capable. The CNTACR write and read-back is the
  `cntacr` value supplied per frame.
- `include/linux/simple_lmk.h` holds only declarations and empty stubs and
  is not part of this model.
- The always-on (`c3stop`) flag is an input of `__arch_timer_setup`. Its
  derivation from the device tree and from the GTDT is not modelled.

=== FILE: cntkctl.dfy ===
/** The two edits of the CNTKCTL register: enabling the event stream and
    setting user access to the counters and timers. */
module Cntkctl {
  import opened Registers

  /** `arch_timer_evtstrm_enable`: replace the trigger field with `divider`
      and enable the virtual event stream. */
  function EvtstrmEnable(cntkctl: bv32, divider: bv32): (r: bv32)
    ensures r & VIRT_EVT_EN != 0
    ensures divider <= 15 ==> (r & EVT_TRIGGER_MASK) >> EVT_TRIGGER_SHIFT == divider
    ensures divider <= 15 ==> SameOutside(r, cntkctl, EVT_TRIGGER_MASK | VIRT_EVT_EN)
  {
    (cntkctl & !EVT_TRIGGER_MASK) | (divider << EVT_TRIGGER_SHIFT) | VIRT_EVT_EN
  }

  /** The CNTKCTL bits `arch_counter_set_user_access` rewrites. */
  const USER_ACCESS_BITS: bv32 :=
    USR_PT_ACCESS_EN | USR_VT_ACCESS_EN | USR_VCT_ACCESS_EN | VIRT_EVT_EN | USR_PCT_ACCESS_EN

  /** `arch_counter_set_user_access`: user access to the timers, the
      physical counter and the event stream off; user access to the virtual
      counter on exactly when configured and this CPU has no counter-read
      workaround. */
  function SetUserAccess(cntkctl: bv32, hasCntvctWa: bool, vctAccessConfigured: bool): (r: bv32)
    ensures UserAccessResult(cntkctl, r, !hasCntvctWa && vctAccessConfigured)
  {
    if hasCntvctWa then
      UserAccessTrapped(cntkctl);
      cntkctl & !USER_ACCESS_BITS
    else if vctAccessConfigured then
      UserAccessVctOn(cntkctl);
      (cntkctl & !USER_ACCESS_BITS) | USR_VCT_ACCESS_EN
    else
      UserAccessVctOff(cntkctl);
      (cntkctl & !USER_ACCESS_BITS) & !USR_VCT_ACCESS_EN
  }

  /** `r` is `cntkctl` with user access to the timers, the physical counter
      and the event stream off, and user access to the virtual counter on
      exactly when `vct`. */
  predicate UserAccessResult(cntkctl: bv32, r: bv32, vct: bool) {
    && r & (USR_PT_ACCESS_EN | USR_VT_ACCESS_EN | VIRT_EVT_EN | USR_PCT_ACCESS_EN) == 0
    && (r & USR_VCT_ACCESS_EN != 0 <==> vct)
    && SameOutside(r, cntkctl, USER_ACCESS_BITS)
  }

  lemma UserAccessTrapped(cntkctl: bv32)
    ensures UserAccessResult(cntkctl, cntkctl & !USER_ACCESS_BITS, false)
  {
  }

  lemma UserAccessVctOn(cntkctl: bv32)
    ensures UserAccessResult(cntkctl, (cntkctl & !USER_ACCESS_BITS) | USR_VCT_ACCESS_EN, true)
  {
  }

  lemma UserAccessVctOff(cntkctl: bv32)
    ensures UserAccessResult(cntkctl, (cntkctl & !USER_ACCESS_BITS) & !USR_VCT_ACCESS_EN, false)
  {
  }

  // ---- The value a starting CPU leaves -----------------------------------

  /** The CNTKCTL bits a starting CPU may change: the user-access bits and
      the event-stream trigger field. */
  const START_BITS: bv32 := USER_ACCESS_BITS | EVT_TRIGGER_MASK

  /** CNTKCTL after `arch_timer_starting_cpu`: user access set as
      `arch_counter_set_user_access` does, then, when the event stream is
      configured, `arch_timer_evtstrm_enable` with `divider`. The event
      counter direction and every bit above the user-access field keep
      their value, and so does the trigger field when the stream is off. */
  function StartCntkctl(cntkctl: bv32, hasCntvctWa: bool, vctAccessConfigured: bool,
                        evtstrm: bool, divider: bv32): (r: bv32)
    requires divider <= 15
    ensures r & (USR_PT_ACCESS_EN | USR_VT_ACCESS_EN | USR_PCT_ACCESS_EN) == 0
    ensures r & USR_VCT_ACCESS_EN != 0 <==> !hasCntvctWa && vctAccessConfigured
    ensures r & VIRT_EVT_EN != 0 <==> evtstrm
    ensures evtstrm ==> (r & EVT_TRIGGER_MASK) >> EVT_TRIGGER_SHIFT == divider
    ensures !evtstrm ==> r & EVT_TRIGGER_MASK == cntkctl & EVT_TRIGGER_MASK
    ensures SameOutside(r, cntkctl, START_BITS)
  {
    var user := SetUserAccess(cntkctl, hasCntvctWa, vctAccessConfigured);
    if evtstrm then
      EventStreamAfterUserAccess(cntkctl, user, !hasCntvctWa && vctAccessConfigured, divider);
      EvtstrmEnable(user, divider)
    else
      SameOutsideAgreesOn(user, cntkctl, USER_ACCESS_BITS, EVT_TRIGGER_MASK);
      SameOutsideWiden(user, cntkctl, USER_ACCESS_BITS, START_BITS);
      user
  }

  /** Enabling the event stream after setting user access keeps the access
      bits just set and changes nothing outside `START_BITS`. */
  lemma EventStreamAfterUserAccess(cntkctl: bv32, user: bv32, vct: bool, divider: bv32)
    requires divider <= 15
    requires UserAccessResult(cntkctl, user, vct)
    ensures EvtstrmEnable(user, divider) & (USR_PT_ACCESS_EN | USR_VT_ACCESS_EN | USR_PCT_ACCESS_EN) == 0
    ensures EvtstrmEnable(user, divider) & USR_VCT_ACCESS_EN != 0 <==> vct
    ensures SameOutside(EvtstrmEnable(user, divider), cntkctl, START_BITS)
  {
    var e := EvtstrmEnable(user, divider);
    SameOutsideAgreesOn(e, user, EVT_TRIGGER_MASK | VIRT_EVT_EN,
                        USR_PT_ACCESS_EN | USR_VT_ACCESS_EN | USR_PCT_ACCESS_EN | USR_VCT_ACCESS_EN);
    SameOutsideTrans(e, user, cntkctl, EVT_TRIGGER_MASK | VIRT_EVT_EN, USER_ACCESS_BITS);
    SameOutsideWiden(e, cntkctl, (EVT_TRIGGER_MASK | VIRT_EVT_EN) | USER_ACCESS_BITS, START_BITS);
  }

  /** Two values equal outside `m` agree on any field disjoint from `m`. */
  lemma SameOutsideAgreesOn(a: bv32, b: bv32, m: bv32, k: bv32)
    requires SameOutside(a, b, m) && k & m == 0
    ensures a & k == b & k
  {
  }

  /** Equality outside `m1` and outside `m2` chains to equality outside
      their union. */
  lemma SameOutsideTrans(a: bv32, b: bv32, c: bv32, m1: bv32, m2: bv32)
    requires SameOutside(a, b, m1) && SameOutside(b, c, m2)
    ensures SameOutside(a, c, m1 | m2)
  {
  }

  /** Equality outside a mask survives widening the mask. */
  lemma SameOutsideWiden(a: bv32, b: bv32, m: bv32, wider: bv32)
    requires SameOutside(a, b, m) && m & !wider == 0
    ensures SameOutside(a, b, wider)
  {
  }
}

=== FILE: config.dfy ===
/** Small configuration decisions of the driver: the first-non-zero counter
    frequency, the event-stream divider, the CNTKCTL edits for the event
    stream and user access, the PPI trigger coercion, the PPI selection, the
    ACPI GTDT interrupt-flag decoding and the choice of a CNTBaseN frame. */
module Config {
  import opened Wrappers
  import opened Registers

  type u32 = x: nat | x < 0x1_0000_0000

  // ---- arch_timer_of_configure_rate --------------------------------------

  /** The resulting `arch_timer_rate` and whether "frequency not available"
      was printed. */
  datatype RateOutcome = RateOutcome(rate: u32, warned: bool)

  /** `arch_timer_of_configure_rate`: a rate already set is kept; otherwise
      the node's `clock-frequency` property, when present, overrides the
      CNTFRQ value `rate`; a resulting zero is reported. */
  function OfConfigureRate(current: u32, rate: u32, clockFrequency: Option<u32>): (r: RateOutcome)
    ensures current != 0 ==> r == RateOutcome(current, false)
    ensures current == 0 ==> r.rate == ValueOr(clockFrequency, rate)
    ensures current == 0 ==> (r.warned <==> r.rate == 0)
  {
    if current != 0 then RateOutcome(current, false)
    else
      var chosen := if clockFrequency.Some? then clockFrequency.value else rate;
      RateOutcome(chosen, chosen == 0)
  }

  /** One probed timer node: its CNTFRQ value and its optional property. */
  datatype RateProbe = RateProbe(rate: u32, clockFrequency: Option<u32>)

  /** The rate after probing the nodes in order. */
  function ProbeRates(current: u32, probes: seq<RateProbe>): u32
    decreases |probes|
  {
    if probes == [] then current
    else ProbeRates(OfConfigureRate(current, probes[0].rate, probes[0].clockFrequency).rate, probes[1..])
  }

  /** The rate each node would offer on its own. */
  function OfferedRates(probes: seq<RateProbe>): (rs: seq<u32>)
    ensures |rs| == |probes|
    ensures forall i | 0 <= i < |probes| :: rs[i] == ValueOr(probes[i].clockFrequency, probes[i].rate)
    decreases |probes|
  {
    if probes == [] then []
    else [ValueOr(probes[0].clockFrequency, probes[0].rate)] + OfferedRates(probes[1..])
  }

  /** Reference: the first non-zero value of a sequence, zero if none. */
  function FirstNonZero(xs: seq<u32>): u32
    decreases |xs|
  {
    if xs == [] then 0 else if xs[0] != 0 then xs[0] else FirstNonZero(xs[1..])
  }

  /** Once the rate is non-zero, no later probe changes it. */
  lemma {:induction false} RateSticky(current: u32, probes: seq<RateProbe>)
    requires current != 0
    ensures ProbeRates(current, probes) == current
    decreases |probes|
  {
    if probes != [] {
      RateSticky(current, probes[1..]);
    }
  }

  /** Probing in order yields the first non-zero rate offered, starting
      from the rate already configured. */
  lemma {:induction false} FirstNonZeroRateWins(current: u32, probes: seq<RateProbe>)
    ensures ProbeRates(current, probes) == FirstNonZero([current] + OfferedRates(probes))
    decreases |probes|
  {
    var xs := [current] + OfferedRates(probes);
    if current != 0 {
      RateSticky(current, probes);
    } else if probes != [] {
      var next := OfConfigureRate(current, probes[0].rate, probes[0].clockFrequency).rate;
      FirstNonZeroRateWins(next, probes[1..]);
      assert xs[1..] == [next] + OfferedRates(probes[1..]);
    }
  }

  // ---- check_ppi_trigger -------------------------------------------------

  const IRQF_TRIGGER_HIGH: bv32 := 0x4
  const IRQF_TRIGGER_LOW: bv32 := 0x8

  /** The trigger used and whether the firmware warning was printed. */
  datatype TriggerOutcome = TriggerOutcome(flags: bv32, warned: bool)

  /** `check_ppi_trigger` applied to the line's reported trigger type. */
  function CheckPpiTrigger(reported: bv32): (r: TriggerOutcome)
    ensures r.flags == IRQF_TRIGGER_HIGH || r.flags == IRQF_TRIGGER_LOW
    ensures r.warned <==> reported != IRQF_TRIGGER_HIGH && reported != IRQF_TRIGGER_LOW
    ensures !r.warned ==> r.flags == reported
    ensures r.warned ==> r.flags == IRQF_TRIGGER_LOW
  {
    if reported != IRQF_TRIGGER_HIGH && reported != IRQF_TRIGGER_LOW then
      TriggerOutcome(IRQF_TRIGGER_LOW, true)
    else
      TriggerOutcome(reported, false)
  }

  /** Coercion is idempotent: a coerced trigger passes unchanged and silently. */
  lemma CheckPpiTriggerIdempotent(reported: bv32)
    ensures var once := CheckPpiTrigger(reported).flags;
            CheckPpiTrigger(once) == TriggerOutcome(once, false)
  {
  }

  // ---- PPI selection -----------------------------------------------------

  /** `enum arch_timer_ppi_nr`. */
  datatype Ppi = PhysSecurePpi | PhysNonsecurePpi | VirtPpi | HypPpi

  /** `arch_timer_ppi[]`: the interrupt number for each PPI, zero when
      firmware gave none. */
  datatype PpiTable = PpiTable(secure: nat, nonsecure: nat, virt: nat, hyp: nat)

  function PpiIrq(t: PpiTable, p: Ppi): nat {
    match p
    case PhysSecurePpi => t.secure
    case PhysNonsecurePpi => t.nonsecure
    case VirtPpi => t.virt
    case HypPpi => t.hyp
  }

  /** `arch_timer_select_ppi`: HYP when the kernel runs in HYP mode; else
      VIRT when HYP mode is unavailable and a virtual interrupt exists; else
      the non-secure physical PPI on arm64 and the secure one elsewhere. */
  function SelectPpi(kernelInHyp: bool, hypModeAvailable: bool, isArm64: bool, t: PpiTable): (p: Ppi)
    ensures p == HypPpi <==> kernelInHyp
    ensures p == VirtPpi <==> !kernelInHyp && !hypModeAvailable && t.virt != 0
    ensures p == PhysNonsecurePpi <==> !kernelInHyp && !(!hypModeAvailable && t.virt != 0) && isArm64
    ensures p == PhysSecurePpi <==> !kernelInHyp && !(!hypModeAvailable && t.virt != 0) && !isArm64
  {
    if kernelInHyp then HypPpi
    else if !hypModeAvailable && t.virt != 0 then VirtPpi
    else if isArm64 then PhysNonsecurePpi
    else PhysSecurePpi
  }

  /** `arch_timer_has_nonsecure_ppi`: the secure PPI is in use and a
      non-secure PPI was also given. */
  predicate HasNonsecurePpi(uses: Ppi, t: PpiTable) {
    uses == PhysSecurePpi && t.nonsecure != 0
  }

  /** With the PPI the driver itself selects, a second non-secure line is
      requested only on 32-bit arm outside HYP mode, when the virtual PPI
      was not chosen and firmware gave a non-secure PPI. */
  lemma HasNonsecurePpiOfSelection(kernelInHyp: bool, hypModeAvailable: bool, isArm64: bool, t: PpiTable)
    ensures HasNonsecurePpi(SelectPpi(kernelInHyp, hypModeAvailable, isArm64, t), t)
        <==> !kernelInHyp && !(!hypModeAvailable && t.virt != 0) && !isArm64 && t.nonsecure != 0
  {
  }

  // ---- map_generic_timer_interrupt ---------------------------------------

  /** GTDT timer flags (ACPI 6, Generic Timer Description Table): bit 0
      interrupt mode (1 = edge), bit 1 polarity (1 = active low). */
  const ACPI_GTDT_INTERRUPT_MODE: bv32 := 0x1
  const ACPI_GTDT_INTERRUPT_POLARITY: bv32 := 0x2

  datatype Trigger = LevelSensitive | EdgeSensitive
  datatype Polarity = ActiveHigh | ActiveLow

  /** No interrupt (the function returns 0), or the GSI registration it
      requests. */
  datatype GsiRequest = NoInterrupt | RegisterGsi(gsi: bv32, trigger: Trigger, polarity: Polarity)

  /** `map_generic_timer_interrupt`. */
  function MapGenericTimerInterrupt(interrupt: bv32, flags: bv32): (r: GsiRequest)
    ensures r.NoInterrupt? <==> interrupt == 0
    ensures r.RegisterGsi? ==> r.gsi == interrupt
    ensures r.RegisterGsi? ==> (r.trigger == EdgeSensitive <==> flags & ACPI_GTDT_INTERRUPT_MODE != 0)
    ensures r.RegisterGsi? ==> (r.polarity == ActiveLow <==> flags & ACPI_GTDT_INTERRUPT_POLARITY != 0)
  {
    if interrupt == 0 then NoInterrupt
    else
      var trigger := if flags & ACPI_GTDT_INTERRUPT_MODE != 0 then EdgeSensitive else LevelSensitive;
      var polarity := if flags & ACPI_GTDT_INTERRUPT_POLARITY != 0 then ActiveLow else ActiveHigh;
      RegisterGsi(interrupt, trigger, polarity)
  }

  /** The GTDT flag bits describing a trigger and polarity. */
  function GtdtFlags(trigger: Trigger, polarity: Polarity): bv32 {
    (if trigger == EdgeSensitive then ACPI_GTDT_INTERRUPT_MODE else 0)
    | (if polarity == ActiveLow then ACPI_GTDT_INTERRUPT_POLARITY else 0)
  }

  /** Decoding recovers the encoded trigger and polarity, whatever the other
      flag bits (such as always-on) hold. */
  lemma GtdtFlagsRoundTrip(interrupt: bv32, trigger: Trigger, polarity: Polarity, other: bv32)
    requires interrupt != 0
    requires other & (ACPI_GTDT_INTERRUPT_MODE | ACPI_GTDT_INTERRUPT_POLARITY) == 0
    ensures MapGenericTimerInterrupt(interrupt, GtdtFlags(trigger, polarity) | other)
         == RegisterGsi(interrupt, trigger, polarity)
  {
    var f := GtdtFlags(trigger, polarity) | other;
    assert f & ACPI_GTDT_INTERRUPT_MODE != 0 <==> trigger == EdgeSensitive;
    assert f & ACPI_GTDT_INTERRUPT_POLARITY != 0 <==> polarity == ActiveLow;
  }

  // ---- CNTBaseN frame selection in arch_timer_mem_init -------------------

  // CNTACR<n> bits.
  const CNTACR_RPCT: bv32 := 0x01
  const CNTACR_RVCT: bv32 := 0x02
  const CNTACR_RWVT: bv32 := 0x10
  const CNTACR_RWPT: bv32 := 0x20

  /** One available child node: its `frame-number` property, if present,
      and the CNTACR<n> value read back after writing all six access bits. */
  datatype FrameNode = FrameNode(frameNumber: Option<nat>, cntacr: bv32)

  /** `cnttidr & CNTTIDR_VIRT(n)`: bit 4n+1. Frame numbers from 8 on have
      that bit beyond the 32-bit register, so the test is false for them. */
  predicate FrameHasVirt(cnttidr: bv32, n: nat) {
    n < 8 && (cnttidr >> (4 * n + 1)) & 1 == 1
  }

  predicate Numbered(f: FrameNode) {
    f.frameNumber.Some?
  }

  /** A virtual-capable frame: CNTTIDR says so and both RWVT and RVCT stuck. */
  predicate VirtFrame(cnttidr: bv32, f: FrameNode) {
    && Numbered(f)
    && FrameHasVirt(cnttidr, f.frameNumber.value)
    && f.cntacr & (CNTACR_RWVT | CNTACR_RVCT) == CNTACR_RWVT | CNTACR_RVCT
  }

  /** A physical-capable frame: both RWPT and RPCT stuck. */
  predicate PhysFrame(f: FrameNode) {
    Numbered(f) && f.cntacr & (CNTACR_RWPT | CNTACR_RPCT) == CNTACR_RWPT | CNTACR_RPCT
  }

  /** `-EINVAL` for a frame without `frame-number`, `-ENXIO` when no frame
      is usable (mapping the missing best frame fails), or the frame chosen
      and whether it is used through its virtual view. */
  datatype FrameChoice = MissingFrameNumber | NoUsableFrame | Chosen(index: nat, useVirtual: bool)

  /** The frame loop of `arch_timer_mem_init`: the first virtual-capable
      frame wins at once; otherwise the last physical-capable frame; a frame
      without a number, met before any virtual-capable one, aborts. */
  method SelectTimerFrame(cnttidr: bv32, frames: seq<FrameNode>) returns (c: FrameChoice)
    ensures c.Chosen? ==> c.index < |frames|
    ensures c.Chosen? && c.useVirtual ==>
              && VirtFrame(cnttidr, frames[c.index])
              && forall j | 0 <= j < c.index :: Numbered(frames[j]) && !VirtFrame(cnttidr, frames[j])
    ensures c.Chosen? && !c.useVirtual ==>
              && PhysFrame(frames[c.index])
              && (forall j | 0 <= j < |frames| :: Numbered(frames[j]) && !VirtFrame(cnttidr, frames[j]))
              && forall j | c.index < j < |frames| :: !PhysFrame(frames[j])
    ensures c == MissingFrameNumber ==>
              exists i | 0 <= i < |frames| ::
                && !Numbered(frames[i])
                && forall j | 0 <= j < i :: !VirtFrame(cnttidr, frames[j])
    ensures c == NoUsableFrame ==>
              forall j | 0 <= j < |frames| ::
                Numbered(frames[j]) && !VirtFrame(cnttidr, frames[j]) && !PhysFrame(frames[j])
  {
    var best: Option<nat> := None;
    var i := 0;
    while i < |frames|
      invariant i <= |frames|
      invariant forall j | 0 <= j < i :: Numbered(frames[j]) && !VirtFrame(cnttidr, frames[j])
      invariant best.Some? ==> best.value < i && PhysFrame(frames[best.value])
      invariant best.Some? ==> forall j | best.value < j < i :: !PhysFrame(frames[j])
      invariant best.None? ==> forall j | 0 <= j < i :: !PhysFrame(frames[j])
    {
      var f := frames[i];
      if f.frameNumber.None? {
        return MissingFrameNumber;
      }
      if VirtFrame(cnttidr, f) {
        return Chosen(i, true);
      }
      if PhysFrame(f) {
        best := Some(i);
      }
      i := i + 1;
    }
    if best.None? {
      return NoUsableFrame;
    }
    return Chosen(best.value, false);
  }
}

=== FILE: counter.dfy ===
/** Counter readers: the tear-safe high/low/high read of the memory-mapped
    counter, the bounded double-read retry used for Freescale erratum
    A-008585, and the bit-32 selector used for ARM erratum 858921.

    Each hardware read is a sample from a stream supplied by the caller:
    `sample(n)` is the value the n-th read in the loop returns. */
module Counter {
  import opened Registers

  // ---- arch_counter_get_cntvct_mem ---------------------------------------

  /** Iteration `k` reads CNTVCT_HI, CNTVCT_LO, CNTVCT_HI as samples 3k,
      3k+1 and 3k+2; it is torn when the two high halves differ. */
  predicate Torn(sample: nat -> bv32, k: nat) {
    sample(3 * k) != sample(3 * k + 2)
  }

  /** `arch_counter_get_cntvct_mem`. The source spins until the two high
      halves agree; `settle` is an iteration at which they do (the hardware
      guarantees one), and only bounds the proof. */
  method ArchCounterGetCntvctMem(sample: nat -> bv32, ghost settle: nat) returns (v: bv64, iters: nat)
    requires !Torn(sample, settle)
    ensures iters <= settle
    ensures !Torn(sample, iters)
    ensures forall j | 0 <= j < iters :: Torn(sample, j)
    ensures Hi32(v) == sample(3 * iters) && Hi32(v) == sample(3 * iters + 2)
    ensures Lo32(v) == sample(3 * iters + 1)
  {
    var k := 0;
    var hi, lo, tmp := sample(0), sample(1), sample(2);
    while hi != tmp
      invariant k <= settle
      invariant hi == sample(3 * k) && lo == sample(3 * k + 1) && tmp == sample(3 * k + 2)
      invariant forall j | 0 <= j < k :: Torn(sample, j)
      decreases settle - k
    {
      k := k + 1;
      hi, lo, tmp := sample(3 * k), sample(3 * k + 1), sample(3 * k + 2);
    }
    v := Join(hi, lo);
    iters := k;
  }

  // ---- __fsl_a008585_read_reg -------------------------------------------

  const FSL_A008585_RETRIES: nat := 200

  /** Iteration `j` reads the register twice, as samples 2j and 2j+1. */
  predicate Agree(sample: nat -> bv64, j: nat) {
    sample(2 * j) == sample(2 * j + 1)
  }

  /** The value returned, how many iterations ran, and whether the
      exhaustion warning condition (`!_retries`) held. */
  datatype RetryRead = RetryRead(value: bv64, iterations: nat, warned: bool)

  /** The do-while loop from iteration `i` on; after iteration `i` the retry
      counter holds `FSL_A008585_RETRIES - (i + 1)`. */
  function FslLoopFrom(sample: nat -> bv64, i: nat): (r: RetryRead)
    requires i < FSL_A008585_RETRIES
    ensures i < r.iterations <= FSL_A008585_RETRIES
    ensures r.value == sample(2 * (r.iterations - 1) + 1)
    ensures forall j | i <= j < r.iterations - 1 :: !Agree(sample, j)
    ensures r.iterations < FSL_A008585_RETRIES ==> Agree(sample, r.iterations - 1)
    ensures r.warned <==> r.iterations == FSL_A008585_RETRIES
    decreases FSL_A008585_RETRIES - i
  {
    var first, second := sample(2 * i), sample(2 * i + 1);
    var retries := FSL_A008585_RETRIES - (i + 1);
    if first != second && retries != 0 then FslLoopFrom(sample, i + 1)
    else RetryRead(second, i + 1, retries == 0)
  }

  /** `__fsl_a008585_read_reg`: at most 200 double reads; stops early only on
      an agreeing pair; returns the second read of the last pair; warns
      exactly when the retry budget ran out, even if that last pair agreed. */
  function FslA008585ReadReg(sample: nat -> bv64): (r: RetryRead)
    ensures 1 <= r.iterations <= FSL_A008585_RETRIES
    ensures r.value == sample(2 * (r.iterations - 1) + 1)
    ensures forall j | 0 <= j < r.iterations - 1 :: !Agree(sample, j)
    ensures r.iterations < FSL_A008585_RETRIES ==> Agree(sample, r.iterations - 1)
    ensures r.warned <==> r.iterations == FSL_A008585_RETRIES
  {
    FslLoopFrom(sample, 0)
  }

  /** A register that never reads the same value twice still yields a
      value: the last sample, after all 200 iterations, with the warning. */
  lemma FslNeverAgrees(sample: nat -> bv64)
    requires forall j :: !Agree(sample, j)
    ensures FslA008585ReadReg(sample) == RetryRead(sample(2 * FSL_A008585_RETRIES - 1), FSL_A008585_RETRIES, true)
  {
  }

  /** If the first pair agrees the loop runs once and does not warn. */
  lemma FslStableFirstRead(sample: nat -> bv64)
    requires Agree(sample, 0)
    ensures FslA008585ReadReg(sample) == RetryRead(sample(0), 1, false)
  {
  }

  // ---- arm64_858921_read_cntvct_el0 -------------------------------------

  /** Counter values as unsigned 64-bit integers, so that reads can be
      ordered. */
  type u64 = x: nat | x < 0x1_0000_0000_0000_0000

  /** Bit 32 of a counter value. */
  function Bit32(x: u64): nat {
    (x / 0x1_0000_0000) % 2
  }

  /** The two reads disagree in bit 32. */
  predicate Bit32Differs(first: u64, second: u64) {
    Bit32(first) != Bit32(second)
  }

  /** Bit 32 of the exclusive or is set exactly when the operands disagree
      in bit 32. */
  lemma XorBit32(a: bv64, b: bv64)
    ensures ((a ^ b) >> 32) & 1 == 1 <==> (a >> 32) & 1 != (b >> 32) & 1
  {
  }

  /** The arithmetic bit 32 is the bit-vector bit 32. */
  lemma Bit32AsBits(x: u64)
    ensures Bit32(x) == 1 <==> ((x as bv64) >> 32) & 1 == 1
  {
  }

  /** `Bit32Differs` is the source's test `((old ^ new) >> 32) & 1` on the
      64-bit register values. */
  lemma Bit32DiffersIsXorTest(first: u64, second: u64)
    ensures Bit32Differs(first, second) <==> (((first as bv64) ^ (second as bv64)) >> 32) & 1 == 1
  {
    Bit32AsBits(first);
    Bit32AsBits(second);
    XorBit32(first as bv64, second as bv64);
  }

  /** `arm64_858921_read_cntvct_el0`: the first read when bit 32 changed
      between the two reads, the second read otherwise. */
  function Arm858921ReadCntvct(first: u64, second: u64): (r: u64)
    ensures r == first || r == second
    ensures Bit32Differs(first, second) ==> r == first
    ensures !Bit32Differs(first, second) ==> r == second
    ensures Bit32(r) == Bit32(first)
  {
    if Bit32Differs(first, second) then first else second
  }

  /** With two ordered reads the result lies between them: the selector never
      invents a value outside the observed window. */
  lemma Arm858921Between(first: u64, second: u64)
    requires first <= second
    ensures first <= Arm858921ReadCntvct(first, second) <= second
  {
  }
}

=== FILE: errata.dfy ===
/** The out-of-line erratum workaround registry: a fixed, ordered catalog of
    workaround descriptors, the three match predicates (device-tree
    property, per-CPU capability, ACPI OEM table identity), the ordered
    catalog search, and the per-CPU installation with its global enable flag
    and the sticky disabling of the vDSO fast path.

    A descriptor is identified by its index in the catalog (the driver
    compares descriptor pointers into the static array). Function pointers
    in a descriptor become tags (`ReadHook`) or presence flags. */
module Errata {
  import opened Wrappers

  /** `ate_match_dt`, `ate_match_local_cap_id`, `ate_match_acpi_oem_info`. */
  datatype MatchType = MatchDt | MatchLocalCapId | MatchAcpiOemInfo

  /** The CPU capabilities the catalog keys on (`ARM64_WORKAROUND_*`). */
  datatype CpuCap = Workaround1188873 | Workaround858921

  /** `ACPI_OEM_ID_SIZE` (6) and `ACPI_OEM_TABLE_ID_SIZE` (8) byte fields. */
  type OemIdBytes = s: seq<char> | |s| == 6 witness "\0\0\0\0\0\0"
  type OemTableIdBytes = s: seq<char> | |s| == 8 witness "\0\0\0\0\0\0\0\0"

  /** One entry of an OEM list (`struct ate_acpi_oem_info`). */
  datatype OemInfo = OemInfo(oemId: OemIdBytes, oemTableId: OemTableIdBytes, oemRevision: bv32)

  /** The identity fields of an ACPI table header. */
  datatype AcpiTableHeader = AcpiTableHeader(oemId: OemIdBytes, oemTableId: OemTableIdBytes, oemRevision: bv32)

  /** The `id` field of a descriptor, interpreted per match type. */
  datatype ErratumId = DtProperty(name: string) | LocalCap(cap: CpuCap) | OemList(infos: seq<OemInfo>)

  /** Which replacement register reader a descriptor installs. */
  datatype ReadHook = FslA008585 | Arm1188873 | Hisi161010101 | Arm858921

  /** `struct arch_timer_erratum_workaround`. The two `set_next_event_*`
      hooks only ever point at the generic erratum arm path, so only their
      presence is recorded. */
  datatype Workaround = Workaround(
    matchType: MatchType,
    id: ErratumId,
    desc: string,
    readCntpTval: Option<ReadHook>,
    readCntvTval: Option<ReadHook>,
    readCntvct: Option<ReadHook>,
    setNextEventPhys: bool,
    setNextEventVirt: bool)

  const OemSentinel: OemInfo := OemInfo("\0\0\0\0\0\0", "\0\0\0\0\0\0\0\0", 0)

  /** `hisi_161010101_oem_info`, ending in the all-zero sentinel. */
  const Hisi161010101OemInfo: seq<OemInfo> := [
    OemInfo("HISI  ", "HIP05   ", 0),
    OemInfo("HISI  ", "HIP06   ", 0),
    OemInfo("HISI  ", "HIP07   ", 0),
    OemSentinel
  ]

  /** `ool_workarounds`, with every erratum configuration option enabled. */
  const OolWorkarounds: seq<Workaround> := [
    Workaround(MatchDt, DtProperty("fsl,erratum-a008585"), "Freescale erratum a005858",
               Some(FslA008585), Some(FslA008585), Some(FslA008585), true, true),
    Workaround(MatchLocalCapId, LocalCap(Workaround1188873), "ARM erratum 1188873",
               None, None, Some(Arm1188873), true, true),
    Workaround(MatchAcpiOemInfo, OemList(Hisi161010101OemInfo), "HiSilicon erratum 161010101",
               Some(Hisi161010101), Some(Hisi161010101), Some(Hisi161010101), true, true),
    Workaround(MatchLocalCapId, LocalCap(Workaround858921), "ARM erratum 858921",
               None, None, Some(Arm858921), false, false)
  ]

  // ---- ACPI OEM matching -----------------------------------------------

  /** An entry equal to the zero-initialised `empty_oem_info`. */
  predicate IsSentinel(info: OemInfo) {
    info == OemSentinel
  }

  /** The three `memcmp`/`==` tests of the OEM predicate. */
  predicate OemExact(info: OemInfo, table: AcpiTableHeader) {
    && info.oemId == table.oemId
    && info.oemTableId == table.oemTableId
    && info.oemRevision == table.oemRevision
  }

  /** Index of the first sentinel (the list length if there is none). */
  function SentinelIndex(infos: seq<OemInfo>): (k: nat)
    ensures k <= |infos|
    ensures forall j | 0 <= j < k :: !IsSentinel(infos[j])
    ensures k < |infos| ==> IsSentinel(infos[k])
    decreases |infos|
  {
    if infos == [] || IsSentinel(infos[0]) then 0 else 1 + SentinelIndex(infos[1..])
  }

  /** The loop of `arch_timer_check_acpi_oem_erratum`: true exactly when an
      entry before the sentinel matches the table on all three fields. */
  function OemListMatches(infos: seq<OemInfo>, table: AcpiTableHeader): (r: bool)
    ensures r <==> exists i | 0 <= i < SentinelIndex(infos) :: OemExact(infos[i], table)
    decreases |infos|
  {
    if infos == [] || IsSentinel(infos[0]) then false
    else if OemExact(infos[0], table) then true
    else
      var rest := OemListMatches(infos[1..], table);
      assert forall i | 1 <= i < SentinelIndex(infos) :: infos[i] == infos[1..][i - 1];
      rest
  }

  /** The sentinel position is unaffected by anything appended after it. */
  lemma {:induction false} SentinelIndexAppend(infos: seq<OemInfo>, tail: seq<OemInfo>)
    requires SentinelIndex(infos) < |infos|
    ensures SentinelIndex(infos + tail) == SentinelIndex(infos)
    decreases |infos|
  {
    if !IsSentinel(infos[0]) {
      assert (infos + tail)[1..] == infos[1..] + tail;
      SentinelIndexAppend(infos[1..], tail);
    }
  }

  /** Entries after the sentinel are never examined. */
  lemma OemListIgnoresAfterSentinel(infos: seq<OemInfo>, tail: seq<OemInfo>, table: AcpiTableHeader)
    requires SentinelIndex(infos) < |infos|
    ensures OemListMatches(infos + tail, table) == OemListMatches(infos, table)
  {
    SentinelIndexAppend(infos, tail);
    var k := SentinelIndex(infos);
    assert forall i | 0 <= i < k :: (infos + tail)[i] == infos[i];
  }

  // ---- Catalog search --------------------------------------------------

  /** Inputs of the three match functions: the device-tree node's
      properties, this CPU's capabilities and the ACPI table header. */
  datatype MatchContext = MatchContext(dtProps: set<string>, cpuCaps: set<CpuCap>, table: AcpiTableHeader)

  /** `arch_timer_check_dt_erratum`: the node has the entry's property. */
  function CheckDtErratum(wa: Workaround, ctx: MatchContext): (r: bool)
    ensures r <==> exists p | p in ctx.dtProps :: wa.id == DtProperty(p)
  {
    wa.id.DtProperty? && wa.id.name in ctx.dtProps
  }

  /** `arch_timer_check_local_cap_erratum`: this CPU has the entry's
      capability. */
  function CheckLocalCapErratum(wa: Workaround, ctx: MatchContext): (r: bool)
    ensures r <==> exists c | c in ctx.cpuCaps :: wa.id == LocalCap(c)
  {
    wa.id.LocalCap? && wa.id.cap in ctx.cpuCaps
  }

  /** `arch_timer_check_acpi_oem_erratum`: some entry of the list, before
      its sentinel, matches the table exactly. */
  function CheckAcpiOemErratum(wa: Workaround, ctx: MatchContext): (r: bool)
    ensures r <==> wa.id.OemList? &&
                   exists i | 0 <= i < SentinelIndex(wa.id.infos) :: OemExact(wa.id.infos[i], ctx.table)
  {
    wa.id.OemList? && OemListMatches(wa.id.infos, ctx.table)
  }

  /** The match function `arch_timer_check_ool_workaround` picks per type. */
  predicate MatchFn(matchType: MatchType, wa: Workaround, ctx: MatchContext) {
    match matchType
    case MatchDt => CheckDtErratum(wa, ctx)
    case MatchLocalCapId => CheckLocalCapErratum(wa, ctx)
    case MatchAcpiOemInfo => CheckAcpiOemErratum(wa, ctx)
  }

  /** Each match function consults only its own argument: the device-tree
      check the node, the capability check this CPU, the OEM check the
      table header. */
  lemma MatchFnReadsOnlyItsArgument(matchType: MatchType, wa: Workaround, c1: MatchContext, c2: MatchContext)
    requires matchType == MatchDt ==> c1.dtProps == c2.dtProps
    requires matchType == MatchLocalCapId ==> c1.cpuCaps == c2.cpuCaps
    requires matchType == MatchAcpiOemInfo ==> c1.table == c2.table
    ensures MatchFn(matchType, wa, c1) == MatchFn(matchType, wa, c2)
  {
  }

  /** Entry `i` has the queried type and its predicate holds. */
  predicate Qualifies(cat: seq<Workaround>, matchType: MatchType, ctx: MatchContext, i: nat)
    requires i < |cat|
  {
    cat[i].matchType == matchType && MatchFn(matchType, cat[i], ctx)
  }

  function IterateFrom(cat: seq<Workaround>, matchType: MatchType, ctx: MatchContext, from: nat): (r: Option<nat>)
    requires from <= |cat|
    ensures r.Some? ==> from <= r.value < |cat| && Qualifies(cat, matchType, ctx, r.value)
    ensures r.Some? ==> forall j | from <= j < r.value :: !Qualifies(cat, matchType, ctx, j)
    ensures r.None? ==> forall j | from <= j < |cat| :: !Qualifies(cat, matchType, ctx, j)
    decreases |cat| - from
  {
    if from == |cat| then None
    else if Qualifies(cat, matchType, ctx, from) then Some(from)
    else IterateFrom(cat, matchType, ctx, from + 1)
  }

  /** `arch_timer_iterate_errata`: the first entry, in catalog order, of the
      queried type whose predicate holds; none when no entry qualifies. */
  function IterateErrata(cat: seq<Workaround>, matchType: MatchType, ctx: MatchContext): (r: Option<nat>)
    ensures r.Some? ==> r.value < |cat| && Qualifies(cat, matchType, ctx, r.value)
    ensures r.Some? ==> forall j | 0 <= j < r.value :: !Qualifies(cat, matchType, ctx, j)
    ensures r.None? ==> forall j | 0 <= j < |cat| :: !Qualifies(cat, matchType, ctx, j)
  {
    IterateFrom(cat, matchType, ctx, 0)
  }

  // ---- Per-CPU installation --------------------------------------------

  /** `arch_timer_read_ool_enabled`, the per-CPU
      `timer_unstable_counter_workaround` slots (one per possible CPU,
      holding a catalog index) and `vdso_default`. */
  datatype OolState = OolState(enabled: bool, slots: seq<Option<nat>>, vdsoDefault: bool)

  /** Every slot names a catalog entry, no slot is filled while the global
      flag is still off, and a slot holding a counter-read workaround
      implies the vDSO fast path is off. */
  predicate Valid(cat: seq<Workaround>, st: OolState) {
    && (forall c | 0 <= c < |st.slots| :: st.slots[c].Some? ==> st.slots[c].value < |cat|)
    && (!st.enabled ==> forall c | 0 <= c < |st.slots| :: st.slots[c].None?)
    && (forall c | 0 <= c < |st.slots| ::
          st.slots[c].Some? && st.slots[c].value < |cat| && cat[st.slots[c].value].readCntvct.Some?
          ==> !st.vdsoDefault)
  }

  /** The boot-time state: flag off, every slot empty, vDSO fast path on. */
  function InitialState(cat: seq<Workaround>, ncpus: nat): (st: OolState)
    ensures Valid(cat, st) && !st.enabled && st.vdsoDefault && |st.slots| == ncpus
  {
    OolState(false, seq(ncpus, _ => None), true)
  }

  /** `arch_timer_enable_workaround`. */
  function EnableWorkaround(cat: seq<Workaround>, st: OolState, wa: nat, local: bool, cpu: nat): (st': OolState)
    requires wa < |cat| && cpu < |st.slots|
    ensures st'.enabled && |st'.slots| == |st.slots|
    ensures local ==> st'.slots == st.slots[cpu := Some(wa)]
    ensures !local ==> forall c | 0 <= c < |st.slots| :: st'.slots[c] == Some(wa)
    ensures st'.vdsoDefault <==> st.vdsoDefault && cat[wa].readCntvct.None?
  {
    var slots := if local then st.slots[cpu := Some(wa)] else seq(|st.slots|, _ => Some(wa));
    OolState(true, slots, st.vdsoDefault && cat[wa].readCntvct.None?)
  }

  /** The new state and whether the "clashes with" warning was printed. */
  datatype CheckOutcome = CheckOutcome(st: OolState, clashWarned: bool)

  /** `arch_timer_check_ool_workaround` run on CPU `cpu`. */
  function CheckOolWorkaround(cat: seq<Workaround>, st: OolState, matchType: MatchType,
                              ctx: MatchContext, cpu: nat): (r: CheckOutcome)
    requires Valid(cat, st) && cpu < |st.slots|
    ensures Valid(cat, r.st) && |r.st.slots| == |st.slots|
    ensures r.st.vdsoDefault ==> st.vdsoDefault
    ensures IterateErrata(cat, matchType, ctx).None? ==> r == CheckOutcome(st, false)
    ensures st.enabled && st.slots[cpu].Some? ==> r.st == st
    ensures r.clashWarned <==>
              && st.enabled && st.slots[cpu].Some?
              && IterateErrata(cat, matchType, ctx).Some?
              && IterateErrata(cat, matchType, ctx).value != st.slots[cpu].value
    ensures IterateErrata(cat, matchType, ctx).Some? && !(st.enabled && st.slots[cpu].Some?) ==>
              r.st == EnableWorkaround(cat, st, IterateErrata(cat, matchType, ctx).value,
                                       matchType == MatchLocalCapId, cpu)
    ensures matchType == MatchLocalCapId ==>
              forall c | 0 <= c < |st.slots| && c != cpu :: r.st.slots[c] == st.slots[c]
  {
    var found := IterateErrata(cat, matchType, ctx);
    if found.None? then CheckOutcome(st, false)
    else if st.enabled && st.slots[cpu].Some? then
      CheckOutcome(st, found.value != st.slots[cpu].value)
    else
      CheckOutcome(EnableWorkaround(cat, st, found.value, matchType == MatchLocalCapId, cpu), false)
  }

  /** A device-tree or ACPI match found on a CPU with an empty slot
      overwrites every CPU's slot, whatever the global flag says; the driver
      runs those checks before any secondary CPU starts. */
  lemma GlobalInstallOverwritesEverySlot(cat: seq<Workaround>, st: OolState, matchType: MatchType,
                                         ctx: MatchContext, cpu: nat)
    requires Valid(cat, st) && cpu < |st.slots| && st.slots[cpu].None?
    requires matchType != MatchLocalCapId && IterateErrata(cat, matchType, ctx).Some?
    ensures var r := CheckOolWorkaround(cat, st, matchType, ctx, cpu);
            forall c | 0 <= c < |st.slots| :: r.st.slots[c] == IterateErrata(cat, matchType, ctx)
  {
  }

  /** One call of `arch_timer_check_ool_workaround`. */
  datatype CheckCall = CheckCall(matchType: MatchType, ctx: MatchContext, cpu: nat)

  predicate CallsFit(calls: seq<CheckCall>, ncpus: nat) {
    forall i | 0 <= i < |calls| :: calls[i].cpu < ncpus
  }

  /** The registry state after a sequence of checks, in order. */
  function RunChecks(cat: seq<Workaround>, st: OolState, calls: seq<CheckCall>): (r: OolState)
    requires Valid(cat, st) && CallsFit(calls, |st.slots|)
    ensures Valid(cat, r) && |r.slots| == |st.slots|
    decreases |calls|
  {
    if calls == [] then st
    else
      var next := CheckOolWorkaround(cat, st, calls[0].matchType, calls[0].ctx, calls[0].cpu).st;
      RunChecks(cat, next, calls[1..])
  }

  /** Once the vDSO fast path is turned off, no sequence of checks turns it
      back on; and once the global flag is on it stays on. */
  lemma {:induction false} RunChecksMonotone(cat: seq<Workaround>, st: OolState, calls: seq<CheckCall>)
    requires Valid(cat, st) && CallsFit(calls, |st.slots|)
    ensures RunChecks(cat, st, calls).vdsoDefault ==> st.vdsoDefault
    ensures st.enabled ==> RunChecks(cat, st, calls).enabled
    decreases |calls|
  {
    if calls != [] {
      var next := CheckOolWorkaround(cat, st, calls[0].matchType, calls[0].ctx, calls[0].cpu).st;
      RunChecksMonotone(cat, next, calls[1..]);
    }
  }

  // ---- Hot-path queries ------------------------------------------------

  /** The two `set_next_event_*` hooks `erratum_handler` may look up. */
  datatype ArmHook = SetNextEventPhys | SetNextEventVirt

  predicate HasArmHook(wa: Workaround, hook: ArmHook) {
    match hook
    case SetNextEventPhys => wa.setNextEventPhys
    case SetNextEventVirt => wa.setNextEventVirt
  }

  /** `erratum_handler`: the hook runs only when the global flag is on and
      this CPU's workaround is present and supplies it. */
  function ErratumHandler(cat: seq<Workaround>, st: OolState, cpu: nat, hook: ArmHook): (r: bool)
    requires Valid(cat, st) && cpu < |st.slots|
    ensures r ==> st.enabled && st.slots[cpu].Some?
    ensures r ==> HasArmHook(cat[st.slots[cpu].value], hook)
    ensures st.enabled && st.slots[cpu].Some? && HasArmHook(cat[st.slots[cpu].value], hook) ==> r
  {
    && st.enabled
    && st.slots[cpu].Some?
    && HasArmHook(cat[st.slots[cpu].value], hook)
  }

  /** `arch_timer_this_cpu_has_cntvct_wa`. It reads the slot without
      consulting the global flag; in a valid state that loses nothing, and
      a CPU with a counter-read workaround always finds the vDSO fast path
      already off. */
  function ThisCpuHasCntvctWa(cat: seq<Workaround>, st: OolState, cpu: nat): (r: bool)
    requires Valid(cat, st) && cpu < |st.slots|
    ensures r ==> st.enabled && !st.vdsoDefault
  {
    st.slots[cpu].Some? && cat[st.slots[cpu].value].readCntvct.Some?
  }

  // ---- Facts about the driver's own catalog ----------------------------

  /** A CPU whose workaround is 858921 always arms through the default
      path: that entry supplies no set-next-event hook. */
  lemma Arm858921ArmsByDefault(st: OolState, cpu: nat, hook: ArmHook)
    requires Valid(OolWorkarounds, st) && cpu < |st.slots|
    requires st.slots[cpu] == Some(3)
    ensures !ErratumHandler(OolWorkarounds, st, cpu, hook)
  {
  }

  /** Once enabled, the Freescale, 1188873 and HiSilicon workarounds take
      over both cp15 arm paths. */
  lemma ReadFixupsTakeOverArming(st: OolState, cpu: nat, hook: ArmHook)
    requires Valid(OolWorkarounds, st) && cpu < |st.slots|
    requires st.enabled && (st.slots[cpu] == Some(0) || st.slots[cpu] == Some(1) || st.slots[cpu] == Some(2))
    ensures ErratumHandler(OolWorkarounds, st, cpu, hook)
  {
  }

  /** The HiSilicon OEM list accepts HIP06 revision 0 and rejects any other
      revision of the same table. */
  lemma HisiOemMatch(rev: bv32)
    ensures OemListMatches(Hisi161010101OemInfo, AcpiTableHeader("HISI  ", "HIP06   ", rev)) <==> rev == 0
  {
    var t := AcpiTableHeader("HISI  ", "HIP06   ", rev);
    assert SentinelIndex(Hisi161010101OemInfo) == 3 by {
      assert !IsSentinel(Hisi161010101OemInfo[0]);
      assert !IsSentinel(Hisi161010101OemInfo[1]);
      assert !IsSentinel(Hisi161010101OemInfo[2]);
      assert IsSentinel(Hisi161010101OemInfo[3]);
    }
    if rev == 0 {
      assert OemExact(Hisi161010101OemInfo[1], t);
    } else {
      assert !OemExact(Hisi161010101OemInfo[0], t);
      assert !OemExact(Hisi161010101OemInfo[2], t);
    }
  }

  /** A CPU affected by 1188873 gets that workaround, whatever else it has:
      it is the first local-capability entry of the catalog. */
  lemma LocalLookupPrefersFirst(ctx: MatchContext)
    requires Workaround1188873 in ctx.cpuCaps
    ensures IterateErrata(OolWorkarounds, MatchLocalCapId, ctx) == Some(1)
  {
    assert !Qualifies(OolWorkarounds, MatchLocalCapId, ctx, 0);
    assert Qualifies(OolWorkarounds, MatchLocalCapId, ctx, 1);
  }
}

=== FILE: evtstream.dfy ===
/** The event-stream divider of `arch_timer_configure_evtstream`: the power
    of two nearest to half the counter frequency over the stream frequency,
    clamped to the 4-bit trigger field. */
module EventStream {
  import opened Config

  /** `ARCH_TIMER_EVT_STREAM_FREQ`: a 100 us event stream. */
  const ARCH_TIMER_EVT_STREAM_FREQ: nat := 10000

  /** The largest divider the 4-bit EVNTI field holds. */
  const EVT_STREAM_MAX_DIVIDER: nat := 15

  function Pow2(k: nat): (p: nat)
    ensures p >= 1
  {
    if k == 0 then 1 else 2 * Pow2(k - 1)
  }

  lemma {:induction false} Pow2Increasing(a: nat, b: nat)
    requires a < b
    ensures Pow2(a) < Pow2(b)
    decreases b
  {
    if a + 1 < b {
      Pow2Increasing(a, b - 1);
    }
  }

  /** Bit `i` of `x` (`x & BIT(i)` is non-zero). */
  predicate BitSet(x: nat, i: nat)
    decreases i
  {
    if i == 0 then x % 2 == 1 else BitSet(x / 2, i - 1)
  }

  /** `fls`: the 1-based position of the most significant set bit, zero for
      zero. */
  function Fls(x: nat): (n: nat)
    ensures x == 0 <==> n == 0
    ensures x > 0 ==> Pow2(n - 1) <= x < Pow2(n)
    decreases x
  {
    if x == 0 then 0 else 1 + Fls(x / 2)
  }

  /** Bracketing `x` between consecutive powers of two fixes `fls(x)`. */
  lemma FlsBracket(x: nat, k: nat)
    requires Pow2(k) <= x < Pow2(k + 1)
    ensures Fls(x) == k + 1
  {
    var n := Fls(x);
    if n < k + 1 {
      Pow2Increasing(n, k);
    } else if n > k + 1 {
      Pow2Increasing(k + 1, n - 1);
    }
  }

  /** The position found for 2^k is k + 1. */
  lemma {:induction false} FlsPow2(k: nat)
    ensures Fls(Pow2(k)) == k + 1
  {
    if k > 0 {
      FlsPow2(k - 1);
      assert Pow2(k) / 2 == Pow2(k - 1);
    }
  }

  /** 2^k has no bit below k set. */
  lemma {:induction false} Pow2LowBitsClear(k: nat, j: nat)
    requires j < k
    ensures !BitSet(Pow2(k), j)
    decreases j
  {
    assert Pow2(k) / 2 == Pow2(k - 1);
    if j > 0 {
      Pow2LowBitsClear(k - 1, j - 1);
    }
  }

  /** The bit just below the top set bit is set exactly when `x` is at
      least three quarters of the way to the next power of two. */
  lemma {:induction false} BitBelowTop(x: nat)
    requires Fls(x) >= 2
    ensures BitSet(x, Fls(x) - 2) <==> 2 * x >= 3 * Pow2(Fls(x) - 1)
    decreases x
  {
    var n := Fls(x);
    if n == 2 {
      assert Pow2(1) == 2;
      assert 2 <= x < 4;
    } else {
      var h := x / 2;
      assert Fls(h) == n - 1;
      BitBelowTop(h);
      assert BitSet(x, n - 2) == BitSet(h, n - 3);
      HalvingPreservesMidpoint(x, Pow2(n - 3));
    }
  }

  /** With `p = 2q` even, `x / 2` reaches the midpoint `3p / 2` exactly when
      `x` reaches `3p`. */
  lemma HalvingPreservesMidpoint(x: nat, q: nat)
    ensures 2 * (x / 2) >= 3 * (2 * q) <==> 2 * x >= 3 * (2 * (2 * q))
  {
    assert x == 2 * (x / 2) + x % 2;
  }

  /** The power of two chosen for a divisor before clamping: the top set bit,
      plus one when the bit below it is also set. */
  function RoundedLsb(div: nat): int {
    var lsb := Fls(div) - 1;
    if lsb > 0 && BitSet(div, lsb - 1) then lsb + 1 else lsb
  }

  /** The divisor `arch_timer_rate / ARCH_TIMER_EVT_STREAM_FREQ / 2`. */
  function EvtStreamDiv(rate: u32): nat {
    rate / ARCH_TIMER_EVT_STREAM_FREQ / 2
  }

  /** The divider `arch_timer_configure_evtstream` passes on:
      `max(0, min(lsb, 15))`. */
  function EvtStreamDivider(rate: u32): (d: nat)
    ensures d <= EVT_STREAM_MAX_DIVIDER
    ensures EvtStreamDiv(rate) == 0 ==> d == 0
  {
    var lsb := RoundedLsb(EvtStreamDiv(rate));
    if lsb < 0 then 0 else if lsb > 15 then 15 else lsb
  }

  /** A divisor that is exactly a power of two is kept. */
  lemma RoundedLsbPow2(k: nat)
    ensures RoundedLsb(Pow2(k)) == k
  {
    FlsPow2(k);
    if k > 0 {
      Pow2LowBitsClear(k, k - 1);
    }
  }

  /** Rounding picks the nearer of the two bracketing powers of two, and
      the upper one on a tie: with `2^L <= div < 2^(L+1)`, the result is
      `L + 1` exactly when `div` is at least the midpoint `3 * 2^(L-1)`. */
  lemma RoundedLsbNearest(div: nat)
    requires div > 0
    ensures var L := Fls(div) - 1;
            && (RoundedLsb(div) == L || RoundedLsb(div) == L + 1)
            && (RoundedLsb(div) == L + 1 <==> 2 * div >= 3 * Pow2(L))
  {
    if Fls(div) >= 2 {
      BitBelowTop(div);
    }
  }

  /** The divider is the exponent k when the divisor is exactly 2^k. */
  lemma EvtStreamDividerExact(rate: u32, k: nat)
    requires k <= EVT_STREAM_MAX_DIVIDER && EvtStreamDiv(rate) == Pow2(k)
    ensures EvtStreamDivider(rate) == k
  {
    RoundedLsbPow2(k);
  }

  /** For a non-zero divisor the divider is the exponent of the nearest
      power of two (ties rounding up), clamped to 15. */
  lemma EvtStreamDividerNearest(rate: u32)
    requires EvtStreamDiv(rate) > 0
    ensures var div := EvtStreamDiv(rate);
            var L := Fls(div) - 1;
            var nearest := if 2 * div >= 3 * Pow2(L) then L + 1 else L;
            EvtStreamDivider(rate) == if nearest > 15 then 15 else nearest
  {
    RoundedLsbNearest(EvtStreamDiv(rate));
  }

  /** A 100 MHz counter gives divisor 5000, between 2^12 and 2^13 and below
      the midpoint 6144, so the divider is 12. */
  lemma EvtStreamDivider100MHz()
    ensures EvtStreamDivider(100000000) == 12
  {
    assert EvtStreamDiv(100000000) == 5000;
    assert Pow2(12) == 4096 && Pow2(13) == 8192;
    FlsBracket(5000, 12);
    RoundedLsbNearest(5000);
  }
}

=== FILE: lifecycle.dfy ===
/** Per-device setup (`__arch_timer_setup`) and the CPU bring-up and
    tear-down steps built on it: which access personality a clock-event
    device gets, which interrupts a starting CPU enables, and how CNTKCTL
    ends up. */
module Lifecycle {
  import opened Wrappers
  import opened Registers
  import opened Errata
  import opened TimerEvent
  import opened Config
  import opened Cntkctl
  import opened EventStream

  /** `ARCH_TIMER_TYPE_CP15` / `ARCH_TIMER_TYPE_MEM`. */
  datatype TimerType = TypeCp15 | TypeMem

  /** `CLOCK_EVT_FEAT_*` bits the driver sets. */
  datatype Feature = FeatOneshot | FeatC3Stop | FeatDynIrq

  /** The clock-event device fields `__arch_timer_setup` fills in. `access`
      stands for the shutdown and set-next-event callbacks installed (one
      access personality drives all three); `irq` is set only for cp15. */
  datatype ClockEventDevice = ClockEventDevice(
    name: string,
    rating: nat,
    features: set<Feature>,
    thisCpuOnly: bool,
    irq: Option<nat>,
    access: Access)

  /** Driver globals the setup reads. */
  datatype DriverConfig = DriverConfig(
    c3stop: bool,
    usesPpi: Ppi,
    ppis: PpiTable,
    memUseVirtual: bool,
    evtstrmEnable: bool,
    vctAccessConfigured: bool,
    rate: u32)

  /** The new device, the updated erratum registry and the stores done by
      the initial shutdown. */
  datatype SetupOutcome = SetupOutcome(clk: ClockEventDevice, st: OolState, writes: seq<Write>)

  /** Whether the selected callbacks use the virtual timer. */
  predicate UsesVirtual(a: Access) {
    a == VirtCp15 || a == MemVirt
  }

  /** `__arch_timer_setup` on CPU `cpu`; `ctx` is what this CPU reports to
      the local-capability check. */
  function ArchTimerSetup(t: TimerType, cfg: DriverConfig, cat: seq<Workaround>, st: OolState,
                          ctx: MatchContext, cpu: nat, rf: Regs): (r: SetupOutcome)
    requires Valid(cat, st) && cpu < |st.slots|
    ensures IsMem(r.clk.access) <==> t == TypeMem
    ensures t == TypeCp15 ==> (UsesVirtual(r.clk.access) <==> cfg.usesPpi == VirtPpi)
    ensures t == TypeMem ==> (UsesVirtual(r.clk.access) <==> cfg.memUseVirtual)
    ensures FeatOneshot in r.clk.features
    ensures FeatC3Stop in r.clk.features <==> t == TypeCp15 && cfg.c3stop
    ensures FeatDynIrq in r.clk.features <==> t == TypeMem
    ensures t == TypeCp15 ==>
              && r.clk.name == "arch_sys_timer" && r.clk.rating == 450 && r.clk.thisCpuOnly
              && r.clk.irq == Some(PpiIrq(cfg.ppis, cfg.usesPpi))
    ensures t == TypeMem ==>
              r.clk.name == "arch_mem_timer" && r.clk.rating == 400 && !r.clk.thisCpuOnly
    ensures t == TypeCp15 ==> r.st == CheckOolWorkaround(cat, st, MatchLocalCapId, ctx, cpu).st
    ensures t == TypeMem ==> r.st == st
    ensures Valid(cat, r.st) && |r.st.slots| == |st.slots|
    ensures r.writes == TimerShutdown(r.clk.access, rf).writes
  {
    match t
    case TypeCp15 =>
      var access := if cfg.usesPpi == VirtPpi then VirtCp15 else PhysCp15;
      var clk := ClockEventDevice("arch_sys_timer", 450,
                                  {FeatOneshot} + (if cfg.c3stop then {FeatC3Stop} else {}),
                                  true, Some(PpiIrq(cfg.ppis, cfg.usesPpi)), access);
      var st' := CheckOolWorkaround(cat, st, MatchLocalCapId, ctx, cpu).st;
      SetupOutcome(clk, st', TimerShutdown(access, rf).writes)
    case TypeMem =>
      var access := if cfg.memUseVirtual then MemVirt else MemPhys;
      var clk := ClockEventDevice("arch_mem_timer", 400, {FeatOneshot, FeatDynIrq}, false, None, access);
      SetupOutcome(clk, st, TimerShutdown(access, rf).writes)
  }

  /** A freshly set-up device is not armed: its timer's ENABLE bit is clear
      and nothing but that bit of its CTRL changed. */
  lemma SetupLeavesTimerDisabled(t: TimerType, cfg: DriverConfig, cat: seq<Workaround>, st: OolState,
                                 ctx: MatchContext, cpu: nat, rf: Regs)
    requires Valid(cat, st) && cpu < |st.slots|
    ensures var r := ArchTimerSetup(t, cfg, cat, st, ctx, cpu, rf);
            var rf' := Apply(rf, r.writes);
            && Ctl(rf', r.clk.access) & CTRL_ENABLE == 0
            && SameOutside(Ctl(rf', r.clk.access), Ctl(rf, r.clk.access), CTRL_ENABLE)
            && !Armed(rf', r.clk.access)
  {
    var r := ArchTimerSetup(t, cfg, cat, st, ctx, cpu, rf);
    ShutdownDisables(r.clk.access, rf);
  }

  /** `enable_percpu_irq(irq, flags)` / `disable_percpu_irq(irq)`. */
  datatype IrqEnable = IrqEnable(irq: nat, flags: bv32)

  /** The per-CPU lines the driver uses: the selected PPI, and the
      non-secure physical PPI as well when `arch_timer_has_nonsecure_ppi`. */
  function PerCpuIrqs(cfg: DriverConfig): (irqs: seq<nat>)
    ensures |irqs| == (if HasNonsecurePpi(cfg.usesPpi, cfg.ppis) then 2 else 1)
    ensures irqs[0] == PpiIrq(cfg.ppis, cfg.usesPpi)
    ensures HasNonsecurePpi(cfg.usesPpi, cfg.ppis) ==> irqs[1] == PpiIrq(cfg.ppis, PhysNonsecurePpi)
  {
    var primary := [PpiIrq(cfg.ppis, cfg.usesPpi)];
    if HasNonsecurePpi(cfg.usesPpi, cfg.ppis) then primary + [cfg.ppis.nonsecure] else primary
  }

  /** The divider as passed to `arch_timer_evtstrm_enable`. */
  function DividerBits(d: nat): (b: bv32)
    requires d <= EVT_STREAM_MAX_DIVIDER
    ensures b <= 15
  {
    d as bv32
  }

  /** What a starting CPU did: the device setup, the interrupts enabled in
      order, and the final CNTKCTL value. */
  datatype StartOutcome = StartOutcome(setup: SetupOutcome, enabled: seq<IrqEnable>, cntkctl: bv32)

  /** `arch_timer_starting_cpu`: set up the cp15 device, enable the timer
      interrupts with coerced triggers, set user access, then enable the
      event stream when configured. `triggerOf` is the trigger type firmware
      recorded for each interrupt; `cntkctl` is CNTKCTL on entry. */
  function ArchTimerStartingCpu(cfg: DriverConfig, cat: seq<Workaround>, st: OolState, ctx: MatchContext,
                                cpu: nat, rf: Regs, triggerOf: nat -> bv32, cntkctl: bv32): (r: StartOutcome)
    requires Valid(cat, st) && cpu < |st.slots|
    ensures r.setup == ArchTimerSetup(TypeCp15, cfg, cat, st, ctx, cpu, rf)
    ensures |r.enabled| == |PerCpuIrqs(cfg)|
    ensures forall i | 0 <= i < |r.enabled| ::
              && r.enabled[i].irq == PerCpuIrqs(cfg)[i]
              && r.enabled[i].flags == CheckPpiTrigger(triggerOf(r.enabled[i].irq)).flags
    ensures r.cntkctl & (USR_PT_ACCESS_EN | USR_VT_ACCESS_EN | USR_PCT_ACCESS_EN) == 0
    ensures r.cntkctl & USR_VCT_ACCESS_EN != 0 <==>
              !ThisCpuHasCntvctWa(cat, r.setup.st, cpu) && cfg.vctAccessConfigured
    ensures r.cntkctl & VIRT_EVT_EN != 0 <==> cfg.evtstrmEnable
    ensures cfg.evtstrmEnable ==>
              (r.cntkctl & EVT_TRIGGER_MASK) >> EVT_TRIGGER_SHIFT
                == DividerBits(EvtStreamDivider(cfg.rate))
    ensures SameOutside(r.cntkctl, cntkctl, START_BITS)
    ensures !cfg.evtstrmEnable ==> r.cntkctl & EVT_TRIGGER_MASK == cntkctl & EVT_TRIGGER_MASK
  {
    var setup := ArchTimerSetup(TypeCp15, cfg, cat, st, ctx, cpu, rf);
    var irqs := PerCpuIrqs(cfg);
    var enabled := seq(|irqs|, i requires 0 <= i < |irqs| => IrqEnable(irqs[i], CheckPpiTrigger(triggerOf(irqs[i])).flags));
    var wa := ThisCpuHasCntvctWa(cat, setup.st, cpu);
    var d := DividerBits(EvtStreamDivider(cfg.rate));
    StartOutcome(setup, enabled, StartCntkctl(cntkctl, wa, cfg.vctAccessConfigured, cfg.evtstrmEnable, d))
  }

  /** What a dying CPU did: the interrupts disabled in order and the
      shutdown stores. */
  datatype StopOutcome = StopOutcome(disabled: seq<nat>, writes: seq<Write>)

  /** `arch_timer_dying_cpu` / `arch_timer_stop` for device `clk`. */
  function ArchTimerDyingCpu(cfg: DriverConfig, clk: ClockEventDevice, rf: Regs): (r: StopOutcome)
    ensures |r.disabled| == (if HasNonsecurePpi(cfg.usesPpi, cfg.ppis) then 2 else 1)
    ensures r.disabled[0] == PpiIrq(cfg.ppis, cfg.usesPpi)
    ensures HasNonsecurePpi(cfg.usesPpi, cfg.ppis) ==> r.disabled[1] == PpiIrq(cfg.ppis, PhysNonsecurePpi)
    ensures Ctl(Apply(rf, r.writes), clk.access) & CTRL_ENABLE == 0
    ensures SameOutside(Ctl(Apply(rf, r.writes), clk.access), Ctl(rf, clk.access), CTRL_ENABLE)
    ensures forall a, g | a != clk.access || g != Ctrl :: RegRead(Apply(rf, r.writes), a, g) == RegRead(rf, a, g)
  {
    ShutdownDisables(clk.access, rf);
    StopOutcome(PerCpuIrqs(cfg), TimerShutdown(clk.access, rf).writes)
  }

  /** A dying CPU disables exactly the interrupts its start enabled, in the
      same order, and leaves its timer disabled. */
  lemma StartStopBalanced(cfg: DriverConfig, cat: seq<Workaround>, st: OolState, ctx: MatchContext,
                          cpu: nat, rf: Regs, triggerOf: nat -> bv32, cntkctl: bv32, rf2: Regs)
    requires Valid(cat, st) && cpu < |st.slots|
    ensures var s := ArchTimerStartingCpu(cfg, cat, st, ctx, cpu, rf, triggerOf, cntkctl);
            var d := ArchTimerDyingCpu(cfg, s.setup.clk, rf2);
            && |d.disabled| == |s.enabled|
            && (forall i | 0 <= i < |d.disabled| :: d.disabled[i] == s.enabled[i].irq)
            && Ctl(Apply(rf2, d.writes), s.setup.clk.access) & CTRL_ENABLE == 0
  {
    var s := ArchTimerStartingCpu(cfg, cat, st, ctx, cpu, rf, triggerOf, cntkctl);
    ShutdownDisables(s.setup.clk.access, rf2);
  }
}

=== FILE: registers.dfy ===
/** The register-level view of the ARM Generic Timer used by the driver:
    the four access personalities, the CNTBaseN frame offsets, the CTRL and
    CNTKCTL bit layouts, and an abstract register file standing in for the
    system registers and the memory-mapped frame.

    Hardware is never touched: a register file is a map from locations to
    32- or 64-bit values (an absent location reads as zero), and every store the
    driver performs is recorded as a `Write`, so that "what was written"
    can be stated next to "what the registers hold afterwards". */
module Registers {

  /** `ARCH_TIMER_PHYS_ACCESS`, `ARCH_TIMER_VIRT_ACCESS`,
      `ARCH_TIMER_MEM_PHYS_ACCESS`, `ARCH_TIMER_MEM_VIRT_ACCESS`. */
  datatype Access = PhysCp15 | VirtCp15 | MemPhys | MemVirt

  /** `ARCH_TIMER_REG_CTRL` and `ARCH_TIMER_REG_TVAL`. */
  datatype TimerReg = Ctrl | Tval

  /** The EL0 timer system registers the driver reaches through the
      architecture accessors. */
  datatype SysReg = CntpCtl | CntpTval | CntpCval | CntvCtl | CntvTval | CntvCval

  /** A register location: a system register, or a byte offset inside the
      timer's CNTBaseN frame. */
  datatype Loc = Sys(reg: SysReg) | Frame(offset: nat)

  // Byte offsets inside a CNTBaseN frame (Generic Timer memory-mapped view).
  const CNTP_TVAL: nat := 0x28
  const CNTP_CTL: nat := 0x2c
  const CNTV_TVAL: nat := 0x38
  const CNTV_CTL: nat := 0x3c

  // CNTx_CTL bits.
  const CTRL_ENABLE: bv32 := 1
  const CTRL_IT_MASK: bv32 := 2
  const CTRL_IT_STAT: bv32 := 4

  // CNTKCTL bits.
  const USR_PCT_ACCESS_EN: bv32 := 0x1
  const USR_VCT_ACCESS_EN: bv32 := 0x2
  const VIRT_EVT_EN: bv32 := 0x4
  const EVT_TRIGGER_SHIFT: bv32 := 4
  const EVT_TRIGGER_MASK: bv32 := 0xF0
  const USR_VT_ACCESS_EN: bv32 := 0x100
  const USR_PT_ACCESS_EN: bv32 := 0x200

  predicate IsMem(access: Access) {
    access == MemPhys || access == MemVirt
  }

  /** Where `arch_timer_reg_read`/`arch_timer_reg_write` land for a logical
      (access, register) pair. */
  function RegLoc(access: Access, reg: TimerReg): (l: Loc)
    ensures l.Frame? <==> IsMem(access)
    ensures l.Frame? ==> l.offset in {CNTP_TVAL, CNTP_CTL, CNTV_TVAL, CNTV_CTL}
    ensures l.Frame? ==> && (l.offset in {CNTP_TVAL, CNTP_CTL} <==> access == MemPhys)
                         && (l.offset in {CNTP_CTL, CNTV_CTL} <==> reg == Ctrl)
    ensures l.Sys? ==> && (l.reg in {CntpCtl, CntpTval} <==> access == PhysCp15)
                       && (l.reg in {CntpCtl, CntvCtl} <==> reg == Ctrl)
  {
    match access
    case MemPhys => if reg == Ctrl then Frame(CNTP_CTL) else Frame(CNTP_TVAL)
    case MemVirt => if reg == Ctrl then Frame(CNTV_CTL) else Frame(CNTV_TVAL)
    case PhysCp15 => if reg == Ctrl then Sys(CntpCtl) else Sys(CntpTval)
    case VirtCp15 => if reg == Ctrl then Sys(CntvCtl) else Sys(CntvTval)
  }

  /** Distinct logical registers never share a hardware location. */
  lemma RegLocInjective(a1: Access, r1: TimerReg, a2: Access, r2: TimerReg)
    ensures RegLoc(a1, r1) == RegLoc(a2, r2) <==> a1 == a2 && r1 == r2
  {
  }

  /** A register holds a 32-bit value (CTRL, TVAL) or a 64-bit one (CVAL). */
  datatype RegVal = V32(v32: bv32) | V64(v64: bv64)

  type Regs = map<Loc, RegVal>

  datatype Write = Write(loc: Loc, val: RegVal)

  /** A 32-bit read; a location never written reads as zero. */
  function Load32(rf: Regs, l: Loc): bv32 {
    if l in rf && rf[l].V32? then rf[l].v32 else 0
  }

  /** Low and high 32-bit halves of a 64-bit value. */
  function Lo32(x: bv64): bv32 {
    (x & 0xFFFF_FFFF) as bv32
  }

  function Hi32(x: bv64): bv32 {
    (x >> 32) as bv32
  }

  /** `((u64) hi << 32) | lo`. */
  function Join(hi: bv32, lo: bv32): (x: bv64)
    ensures Hi32(x) == hi && Lo32(x) == lo
  {
    ((hi as bv64) << 32) | (lo as bv64)
  }

  /** Splitting and re-joining a 64-bit value gives it back. */
  lemma JoinSplit(x: bv64)
    ensures Join(Hi32(x), Lo32(x)) == x
  {
  }

  /** The register file after performing `ws` in order. */
  function Apply(rf: Regs, ws: seq<Write>): Regs
    decreases |ws|
  {
    if ws == [] then rf else Apply(rf[ws[0].loc := ws[0].val], ws[1..])
  }

  lemma ApplyOne(rf: Regs, w: Write)
    ensures Apply(rf, [w]) == rf[w.loc := w.val]
  {
    assert [w][1..] == [];
  }

  lemma ApplyTwo(rf: Regs, w0: Write, w1: Write)
    ensures Apply(rf, [w0, w1]) == rf[w0.loc := w0.val][w1.loc := w1.val]
  {
    assert [w0, w1][1..] == [w1];
    ApplyOne(rf[w0.loc := w0.val], w1);
  }

  lemma ApplyConcat(rf: Regs, w0: Write, w1: Write)
    ensures Apply(rf, [w0, w1]) == Apply(Apply(rf, [w0]), [w1])
  {
    ApplyTwo(rf, w0, w1);
    ApplyOne(rf, w0);
    ApplyOne(rf[w0.loc := w0.val], w1);
  }

  /** `arch_timer_reg_read`: a 32-bit read of the mapped location; it sees
      the value last stored there. */
  function RegRead(rf: Regs, access: Access, reg: TimerReg): (r: bv32)
    ensures RegLoc(access, reg) in rf && rf[RegLoc(access, reg)].V32? ==> r == rf[RegLoc(access, reg)].v32
  {
    Load32(rf, RegLoc(access, reg))
  }

  /** `arch_timer_reg_write`: a 32-bit store to the mapped location. */
  function RegWrite(access: Access, reg: TimerReg, val: bv32): (w: Write)
    ensures w.loc == RegLoc(access, reg) && w.val == V32(val)
  {
    Write(RegLoc(access, reg), V32(val))
  }

  /** Reading back a logical register after one accessor write yields the
      written value for that register and the old value for every other. */
  lemma RegReadAfterWrite(rf: Regs, a: Access, r: TimerReg, v: bv32, a2: Access, r2: TimerReg)
    ensures RegRead(Apply(rf, [RegWrite(a, r, v)]), a2, r2)
         == if a == a2 && r == r2 then v else RegRead(rf, a2, r2)
  {
    RegLocInjective(a, r, a2, r2);
    ApplyOne(rf, RegWrite(a, r, v));
  }

  /** A CTRL store preceded by a store elsewhere: CTRL reads back as stored. */
  lemma ReadAfterTwoWrites(rf: Regs, w0: Write, access: Access, reg: TimerReg, v: bv32)
    requires w0.loc != RegLoc(access, reg)
    ensures RegRead(Apply(rf, [w0, RegWrite(access, reg, v)]), access, reg) == v
  {
    ApplyConcat(rf, w0, RegWrite(access, reg, v));
    RegReadAfterWrite(Apply(rf, [w0]), access, reg, v, access, reg);
  }

  // ---- CTRL bit edits --------------------------------------------------

  /** Bits of `a` and `b` agree everywhere outside `mask`. */
  predicate SameOutside(a: bv32, b: bv32, mask: bv32) {
    a & !mask == b & !mask
  }

  /** `ctrl &= ~ARCH_TIMER_CTRL_ENABLE`. */
  function ClearEnable(ctrl: bv32): (r: bv32)
    ensures r & CTRL_ENABLE == 0
    ensures SameOutside(r, ctrl, CTRL_ENABLE)
  {
    ctrl & !CTRL_ENABLE
  }

  /** Clearing ENABLE in a value where it is already clear changes nothing. */
  lemma ClearEnableFixed(ctrl: bv32)
    requires ctrl & CTRL_ENABLE == 0
    ensures ClearEnable(ctrl) == ctrl
  {
  }

  /** `ctrl |= ARCH_TIMER_CTRL_ENABLE; ctrl &= ~ARCH_TIMER_CTRL_IT_MASK`. */
  function EnableUnmasked(ctrl: bv32): (r: bv32)
    ensures r & CTRL_ENABLE != 0 && r & CTRL_IT_MASK == 0
    ensures SameOutside(r, ctrl, CTRL_ENABLE | CTRL_IT_MASK)
  {
    (ctrl | CTRL_ENABLE) & !CTRL_IT_MASK
  }

  /** `ctrl |= ARCH_TIMER_CTRL_IT_MASK`. */
  function SetMask(ctrl: bv32): (r: bv32)
    ensures r & CTRL_IT_MASK != 0
    ensures SameOutside(r, ctrl, CTRL_IT_MASK)
  {
    ctrl | CTRL_IT_MASK
  }
}

=== FILE: timer_event.dfy ===
/** The per-timer one-shot event device: shutdown, arm (the default path
    through TVAL and the erratum path through CVAL), the arm dispatch that
    decides between them, and the interrupt acknowledge.

    Each operation reads the register file it is given and returns the
    writes it performs, in order, together with its return value. The
    counter value the erratum arm path samples is a parameter. */
module TimerEvent {
  import opened Registers
  import opened Errata

  /** Return value and the stores an operation performs. */
  datatype Effect = Effect(ret: int, writes: seq<Write>)

  /** `IRQ_HANDLED` / `IRQ_NONE`. */
  datatype IrqReturn = IrqHandled | IrqNone

  /** What `timer_handler` did: its return value, its stores, and how many
      times it invoked the clock-event callback. */
  datatype IrqOutcome = IrqOutcome(ret: IrqReturn, writes: seq<Write>, handlerCalls: nat)

  function Ctl(rf: Regs, access: Access): bv32 {
    RegRead(rf, access, Ctrl)
  }

  /** The timer fires when enabled and unmasked (the armed state). */
  predicate Armed(rf: Regs, access: Access) {
    Ctl(rf, access) & CTRL_ENABLE != 0 && Ctl(rf, access) & CTRL_IT_MASK == 0
  }

  /** `timer_shutdown`. */
  function TimerShutdown(access: Access, rf: Regs): (e: Effect)
    ensures e.ret == 0
    ensures |e.writes| == 1 && e.writes[0].loc == RegLoc(access, Ctrl) && e.writes[0].val.V32?
    ensures e.writes[0].val.v32 & CTRL_ENABLE == 0
    ensures SameOutside(e.writes[0].val.v32, Ctl(rf, access), CTRL_ENABLE)
  {
    Effect(0, [RegWrite(access, Ctrl, ClearEnable(Ctl(rf, access)))])
  }

  /** Shutdown clears ENABLE in the register file and leaves every other
      bit of CTRL, and every other register, as it was. */
  lemma ShutdownDisables(access: Access, rf: Regs)
    ensures var rf' := Apply(rf, TimerShutdown(access, rf).writes);
            && Ctl(rf', access) & CTRL_ENABLE == 0
            && SameOutside(Ctl(rf', access), Ctl(rf, access), CTRL_ENABLE)
            && forall a, r | a != access || r != Ctrl :: RegRead(rf', a, r) == RegRead(rf, a, r)
  {
    var v := ClearEnable(Ctl(rf, access));
    var rf' := Apply(rf, TimerShutdown(access, rf).writes);
    assert TimerShutdown(access, rf).writes == [RegWrite(access, Ctrl, v)];
    RegReadAfterWrite(rf, access, Ctrl, v, access, Ctrl);
    assert Ctl(rf', access) == v;
    forall a, r | a != access || r != Ctrl
      ensures RegRead(rf', a, r) == RegRead(rf, a, r)
    {
      RegReadAfterWrite(rf, access, Ctrl, v, a, r);
    }
  }

  /** Shutting down twice leaves the registers as shutting down once. */
  lemma ShutdownIdempotent(access: Access, rf: Regs)
    ensures var once := Apply(rf, TimerShutdown(access, rf).writes);
            Apply(once, TimerShutdown(access, once).writes) == once
  {
    var v := ClearEnable(Ctl(rf, access));
    var w := RegWrite(access, Ctrl, v);
    assert TimerShutdown(access, rf).writes == [w];
    var once := Apply(rf, [w]);
    RegReadAfterWrite(rf, access, Ctrl, v, access, Ctrl);
    ClearEnableFixed(v);
    assert TimerShutdown(access, once).writes == [w];
    ApplyOne(rf, w);
    ApplyOne(once, w);
  }

  /** `set_next_event`: `evt` (truncated to the 32-bit register) into TVAL,
      then CTRL with ENABLE set, IMASK clear and every other bit as read. */
  function SetNextEvent(access: Access, evt: bv64, rf: Regs): (e: Effect)
    ensures |e.writes| == 2
    ensures e.writes[0] == RegWrite(access, Tval, Lo32(evt))
    ensures e.writes[1].loc == RegLoc(access, Ctrl) && e.writes[1].val.V32?
    ensures e.writes[1].val.v32 & CTRL_ENABLE != 0 && e.writes[1].val.v32 & CTRL_IT_MASK == 0
    ensures SameOutside(e.writes[1].val.v32, Ctl(rf, access), CTRL_ENABLE | CTRL_IT_MASK)
  {
    var ctrl := EnableUnmasked(Ctl(rf, access));
    Effect(0, [RegWrite(access, Tval, Lo32(evt)), RegWrite(access, Ctrl, ctrl)])
  }

  /** The comparator `erratum_set_next_event_tval_generic` writes. */
  function CvalLoc(access: Access): Loc {
    if access == PhysCp15 then Sys(CntpCval) else Sys(CntvCval)
  }

  /** `erratum_set_next_event_tval_generic`: the absolute deadline
      `evt + counter` (64-bit wrap-around) into the physical or virtual CVAL,
      then the same CTRL value the default path writes. */
  function ErratumSetNextEvent(access: Access, evt: bv64, counter: bv64, rf: Regs): (e: Effect)
    ensures |e.writes| == 2
    ensures e.writes[0] == Write(CvalLoc(access), V64(evt + counter))
    ensures e.writes[1] == SetNextEvent(access, evt, rf).writes[1]
  {
    var ctrl := EnableUnmasked(Ctl(rf, access));
    Effect(0, [Write(CvalLoc(access), V64(evt + counter)), RegWrite(access, Ctrl, ctrl)])
  }

  /** The hook `erratum_handler` looks up for an access personality. */
  function HookFor(access: Access): ArmHook {
    if access == PhysCp15 then SetNextEventPhys else SetNextEventVirt
  }

  /** `arch_timer_set_next_event_virt`, `_phys`, `_virt_mem` and `_phys_mem`,
      on CPU `cpu` with registry state `st`. */
  function ArchTimerSetNextEvent(access: Access, evt: bv64, cat: seq<Workaround>, st: OolState,
                                 cpu: nat, counter: bv64, rf: Regs): (e: Effect)
    requires Valid(cat, st) && cpu < |st.slots|
    ensures e.ret == 0 && |e.writes| == 2
    ensures IsMem(access) ==> e == SetNextEvent(access, evt, rf)
    ensures !IsMem(access) && ErratumHandler(cat, st, cpu, HookFor(access)) ==>
              e.writes[0] == Write(CvalLoc(access), V64(evt + counter))
    ensures && !IsMem(access) && st.enabled && st.slots[cpu].Some?
            && HasArmHook(cat[st.slots[cpu].value], HookFor(access)) ==>
              e == ErratumSetNextEvent(access, evt, counter, rf)
    ensures !IsMem(access) && !ErratumHandler(cat, st, cpu, HookFor(access)) ==>
              e == SetNextEvent(access, evt, rf)
  {
    if !IsMem(access) && ErratumHandler(cat, st, cpu, HookFor(access)) then
      ErratumSetNextEvent(access, evt, counter, rf)
    else
      SetNextEvent(access, evt, rf)
  }

  /** The memory-mapped arm paths never consult the erratum registry. */
  lemma MemArmIgnoresErrata(access: Access, evt: bv64, cat: seq<Workaround>, st1: OolState, st2: OolState,
                            cpu: nat, c1: bv64, c2: bv64, rf: Regs)
    requires IsMem(access)
    requires Valid(cat, st1) && cpu < |st1.slots| && Valid(cat, st2) && cpu < |st2.slots|
    ensures ArchTimerSetNextEvent(access, evt, cat, st1, cpu, c1, rf)
         == ArchTimerSetNextEvent(access, evt, cat, st2, cpu, c2, rf)
  {
  }

  /** Whichever path runs, the CTRL value arming leaves behind is the
      enable-and-unmask edit of the value it read. */
  lemma ArmCtrlValue(access: Access, evt: bv64, cat: seq<Workaround>, st: OolState,
                     cpu: nat, counter: bv64, rf: Regs)
    requires Valid(cat, st) && cpu < |st.slots|
    ensures Ctl(Apply(rf, ArchTimerSetNextEvent(access, evt, cat, st, cpu, counter, rf).writes), access)
         == EnableUnmasked(Ctl(rf, access))
  {
    var v := EnableUnmasked(Ctl(rf, access));
    if !IsMem(access) && ErratumHandler(cat, st, cpu, HookFor(access)) {
      ReadAfterTwoWrites(rf, Write(CvalLoc(access), V64(evt + counter)), access, Ctrl, v);
    } else {
      ReadAfterTwoWrites(rf, RegWrite(access, Tval, Lo32(evt)), access, Ctrl, v);
    }
  }

  /** Whichever path runs, arming leaves the timer armed with every other
      CTRL bit as read. */
  lemma ArmLeavesArmed(access: Access, evt: bv64, cat: seq<Workaround>, st: OolState,
                       cpu: nat, counter: bv64, rf: Regs)
    requires Valid(cat, st) && cpu < |st.slots|
    ensures var rf' := Apply(rf, ArchTimerSetNextEvent(access, evt, cat, st, cpu, counter, rf).writes);
            && Armed(rf', access)
            && SameOutside(Ctl(rf', access), Ctl(rf, access), CTRL_ENABLE | CTRL_IT_MASK)
  {
    ArmCtrlValue(access, evt, cat, st, cpu, counter, rf);
  }

  /** Arming and then shutting down always leaves ENABLE clear. */
  lemma ArmThenShutdown(access: Access, evt: bv64, cat: seq<Workaround>, st: OolState,
                        cpu: nat, counter: bv64, rf: Regs)
    requires Valid(cat, st) && cpu < |st.slots|
    ensures var armed := Apply(rf, ArchTimerSetNextEvent(access, evt, cat, st, cpu, counter, rf).writes);
            var down := Apply(armed, TimerShutdown(access, armed).writes);
            Ctl(down, access) & CTRL_ENABLE == 0 && !Armed(down, access)
  {
    var armed := Apply(rf, ArchTimerSetNextEvent(access, evt, cat, st, cpu, counter, rf).writes);
    ShutdownDisables(access, armed);
  }

  /** `timer_handler`: with ISTATUS set, write CTRL back with IMASK added,
      run the event callback once and report the interrupt as handled;
      otherwise do nothing and report it as not ours. */
  function TimerHandler(access: Access, rf: Regs): (r: IrqOutcome)
    ensures Ctl(rf, access) & CTRL_IT_STAT != 0 ==>
              && r.ret == IrqHandled && r.handlerCalls == 1 && |r.writes| == 1
              && r.writes[0].loc == RegLoc(access, Ctrl) && r.writes[0].val.V32?
              && r.writes[0].val.v32 & CTRL_IT_MASK != 0
              && SameOutside(r.writes[0].val.v32, Ctl(rf, access), CTRL_IT_MASK)
    ensures Ctl(rf, access) & CTRL_IT_STAT == 0 ==> r == IrqOutcome(IrqNone, [], 0)
  {
    var ctrl := Ctl(rf, access);
    if ctrl & CTRL_IT_STAT != 0 then
      IrqOutcome(IrqHandled, [RegWrite(access, Ctrl, SetMask(ctrl))], 1)
    else
      IrqOutcome(IrqNone, [], 0)
  }

  /** The hardware raising ISTATUS when the deadline passes. */
  function Fire(access: Access, rf: Regs): Regs {
    Apply(rf, [RegWrite(access, Ctrl, Ctl(rf, access) | CTRL_IT_STAT)])
  }

  /** The CTRL value after an armed timer fires and is acknowledged. */
  lemma FireAcknowledgeBits(c: bv32)
    requires c & CTRL_ENABLE != 0
    ensures (c | CTRL_IT_STAT) & CTRL_IT_STAT != 0
    ensures SetMask(c | CTRL_IT_STAT) & CTRL_ENABLE != 0
  {
  }

  /** Arm, fire, acknowledge: the callback runs once, the line ends up masked
      and still enabled. */
  lemma ArmFireAcknowledge(access: Access, evt: bv64, cat: seq<Workaround>, st: OolState,
                           cpu: nat, counter: bv64, rf: Regs)
    requires Valid(cat, st) && cpu < |st.slots|
    ensures var armed := Apply(rf, ArchTimerSetNextEvent(access, evt, cat, st, cpu, counter, rf).writes);
            var fired := Fire(access, armed);
            var irq := TimerHandler(access, fired);
            var acked := Apply(fired, irq.writes);
            && irq.ret == IrqHandled && irq.handlerCalls == 1
            && Ctl(acked, access) & CTRL_IT_MASK != 0
            && Ctl(acked, access) & CTRL_ENABLE != 0
  {
    var armed := Apply(rf, ArchTimerSetNextEvent(access, evt, cat, st, cpu, counter, rf).writes);
    ArmLeavesArmed(access, evt, cat, st, cpu, counter, rf);
    var c := Ctl(armed, access);
    var fired := Fire(access, armed);
    RegReadAfterWrite(armed, access, Ctrl, c | CTRL_IT_STAT, access, Ctrl);
    assert Ctl(fired, access) == c | CTRL_IT_STAT;
    FireAcknowledgeBits(c);
    var irq := TimerHandler(access, fired);
    var m := SetMask(c | CTRL_IT_STAT);
    assert irq.writes == [RegWrite(access, Ctrl, m)];
    RegReadAfterWrite(fired, access, Ctrl, m, access, Ctrl);
  }

  /** A spurious interrupt (ISTATUS clear) leaves the registers untouched. */
  lemma SpuriousIsNoop(access: Access, rf: Regs)
    requires Ctl(rf, access) & CTRL_IT_STAT == 0
    ensures Apply(rf, TimerHandler(access, rf).writes) == rf
    ensures TimerHandler(access, rf).ret == IrqNone && TimerHandler(access, rf).handlerCalls == 0
  {
  }
}

=== FILE: wrappers.dfy ===
/** Values that may be absent: an optional device-tree property, the
    workaround a CPU may not have, the frame a search may not find. */
module Wrappers {

  datatype Option<T> = None | Some(value: T)

  /** The present value, or `fallback` when the property is missing. */
  function ValueOr<T>(o: Option<T>, fallback: T): T {
    if o.Some? then o.value else fallback
  }
}
